=== FILE: README.md ===
# PHP test explorer core in Dafny

This project models the core of a VS Code extension that discovers PHPUnit tests,
runs them and keeps their results in a per-workspace cache. It covers four parts:

- the test parser (`Parser`): the class name, the `test*` methods found by naming
  convention, and the `@test`-annotated methods of a PHP file. The source does this
  with JavaScript regular expressions in global `exec` loops. The model writes each
  pattern as a function giving the match at one index. Alternatives are tried in
  priority order, a lazy `[\s\S]*?` takes the shortest extension, and each greedy
  run is followed by a character it cannot match. One generic loop (`Parser.ExecLoop`)
  takes the leftmost match and resumes where it ends. Under this reading a
  documentation block that is not followed by a test function extends to a later
  block that is.
- the glob matcher (`Glob`): how a collection's pattern becomes a regular expression,
  plus an independent token-language reading of that expression.
- the test runner (`Runner`): how the run command is built (the `--filter` option,
  the relative path, the `docker exec` wrapping), how output is classified, how the
  error section is extracted, and the status events a run reports.
- the explorer (`Explorer`) and the cache service (`CacheStore`):
  - the recursive directory scan and the decision to rescan a collection;
  - the rescan, and grouping by file;
  - status updates to the in-memory index;
  - the cache file's name and path, its load and save, and its deletion on a
    forced refresh.

The outside world is passed in as parameters:

- The file system is a `Disk`: directory listings, the text of readable files, and
  which items cannot be stat'ed.
- A finished shell command is an `Outcome`: its combined output and an optional
  process error.
- Clocks are `Millis` arguments.
- The workspace folders are an `Option<seq<string>>`.
- `path.relative` is a parameter.
- The persisted cache files are a `Store`, a map from path to parsed document.

Each explorer operation returns the new index. That returned index is what the
explorer writes out with `saveCache` (`CacheStore.Save`).

Two behaviours of the code that are easy to miss:

- A directory whose listing contains one item that cannot be stat'ed contributes no
  files at all. The code does not skip just that one item (`Explorer.ListingFiles`).
- `parseMultipleFiles` keeps the order of the input files. `Promise.all` preserves
  order (`Parser.ParseMultipleFilesConcat`).

Two consequences of the code as written, proved rather than hidden:

- The default pattern `**/*Test.php` becomes an expression that needs a `/`. It is
  tested against bare file names, so a collection without its own pattern finds no
  files (`Glob.DefaultPatternMatchesNoFileName`, `Explorer.DefaultPatternFindsNothing`).
- `setTestRunning` marks a method `Unknown`, not `Running` (`Explorer.SetTestRunning`).

## Model

| member | source | states |
|---|---|---|
| Parser.ExtractClassName | src/services/TestParser.ts:58-61 | no class when the text has no `class <word>` declaration anywhere, otherwise the name of the leftmost one |
| Parser.ExecLoop | src/services/TestParser.ts:101-104 | every name the `exec` loop collects is the name of a match at some index at or after where the loop started |
| Parser.ExecStarts | src/services/TestParser.ts:101-104 | one start index per collected name, in range, holding a match of that name |
| Parser.ExecStartsIncrease | src/services/TestParser.ts:101-104 | each collected match starts at or after the end of every earlier one, so the starts strictly increase and matches never overlap |
| Parser.ExecStartsLeftmost | src/services/TestParser.ts:101-104 | each collected match is the leftmost one at or after where the previous match ended, and no match follows the last one |
| Parser.ExecLoopComplete | src/services/TestParser.ts:101-104 | a match at index `q` is collected unless an earlier collected match runs past `q` |
| Parser.ExecLoopNonEmpty | src/services/TestParser.ts:101-104 | if the pattern matches anywhere at or after the start, the loop collects at least one name |
| Parser.LazyMatchLeftmost | src/services/TestParser.ts:116 | the lazy `[\s\S]*?` stops at the first index where the rest of the pattern matches |
| Parser.LazyMatchFound | src/services/TestParser.ts:116 | the lazy `[\s\S]*?` succeeds when the rest matches at any later index |
| Parser.ConventionNames | src/services/TestParser.ts:97-107 | every name found is `test` followed by at least one word character, and the text declares it as `function name(...)`; a text that declares a test function yields at least one name |
| Parser.ConventionNamesInOrder | src/services/TestParser.ts:97-107 | the names come in source order: the k-th is the name of a convention match at a start index, and the starts strictly increase without overlap |
| Parser.DeclarationIsMatch | src/services/TestParser.ts:99 | a bare `function testX(...)` declaration is itself a match of the convention pattern at its own index |
| Parser.DeclaredTestFound | src/services/TestParser.ts:97-107 | a declared `function testX(...)` is found unless an earlier match, such as one that took a documentation block, runs past it |
| Parser.ConventionLoopNonEmpty | src/services/TestParser.ts:97-107 | a text that declares any test function makes the convention loop collect at least one name |
| Parser.AnnotationIsAnnotated | src/services/TestParser.ts:114-124 | every name the annotation scan collects follows a `@test` marker that leads to a function declaration with that name |
| Parser.AnnotatedNames | src/services/TestParser.ts:114-124 | every collected name is an identifier declared as a public function after a `@test` marker; a text with such a declaration yields at least one name |
| Parser.AnnotatedNamesInOrder | src/services/TestParser.ts:114-124 | the names come in source order: the k-th is the name of an annotation match at a start index, and the starts strictly increase without overlap |
| Parser.AnnotationMatchSome | src/services/TestParser.ts:116 | a `@test` marker followed anywhere later by a public function declaration is a match at the marker |
| Parser.AnnotationMatchIs | src/services/TestParser.ts:116 | that match names the first public function declaration after the marker |
| Parser.AnnotatedTestFound | src/services/TestParser.ts:114-124 | the first public function after a `@test` marker is found unless an earlier match runs past the marker |
| Parser.AnnotationLoopNonEmpty | src/services/TestParser.ts:114-124 | a text with an annotated public declaration makes the annotation loop collect at least one name |
| Parser.AppendAnnotated | src/services/TestParser.ts:80-87 | convention methods are kept as a prefix; an appended method's name was not there before and is never appended twice; every annotated name ends up present |
| Parser.AppendAnnotatedOrder | src/services/TestParser.ts:80-87 | the appended names are the annotated names, in their order, minus those already present or appended before |
| Parser.ExtractTestMethods | src/services/TestParser.ts:71-90 | every method carries the class, file, collection and status `Unknown` with no run history; the leading methods are exactly the convention names in order; the rest are distinct annotated names not found by convention; no annotated name is missing |
| Parser.ExtractTestMethodsNames | src/services/TestParser.ts:71-90 | the method names are exactly the convention names, in order and with duplicates, followed by the annotated names in order that are neither convention names nor already appended |
| Parser.ParsePhpTestFile | src/services/TestParser.ts:24-51 | an unreadable file or a file without a class declaration gives no methods; every method returned carries the file's leftmost class name, the file and the collection, with status `Unknown` and no run history |
| Parser.ParseMultipleFiles | src/services/TestParser.ts:150-164 | a method is in the batch iff it is in the parse of one of the files; every method carries the collection and one of the given paths |
| Parser.ParseMultipleFilesConcat | src/services/TestParser.ts:150-164 | parsing a batch is the concatenation of the files' results in input order, so one file's failure leaves the others' results intact |
| Parser.ParseMultipleFilesSingle | src/services/TestParser.ts:150-164 | a batch of one file gives exactly that file's result |
| Parser.IsValidPhpTestFile | src/services/TestParser.ts:171-190 | a file passes only if it ends in `.php`, its text can be read, and the text has a class name for the extractor |
| Parser.ParsedFileIsValid | src/services/TestParser.ts:171-190 | a `.php` file whose text yields at least one method passes the validity check (class declaration plus a test signal) |
| Parser.PublicDeclarationHasFunction | src/services/TestParser.ts:116-121 | a matched annotated declaration has the `function` keyword at or after its start |
| Glob.MatchesPattern | src/testExplorer.ts:212-222 | a name matches iff some substring of it is in the language of the translated pattern |
| Glob.RegexSourceIsRendering | src/testExplorer.ts:212-219 | the three textual replacements (`**`, then `*`, then `?`) equal the rendering of a per-character token translation; the `*` written for `**` is rewritten by the second step, so `**` becomes `.[^/]*`, and the `?` step never touches what the earlier steps wrote |
| Glob.DoubleStarRewrite | src/testExplorer.ts:214-218 | the three replacements turn a leading `**` into `.[^/]*` followed by the rewrite of the rest |
| Glob.TranslateKeepsSlash | src/testExplorer.ts:214-218 | a `/` in the glob becomes a literal `/` the expression requires |
| Glob.MatchHereSound | src/testExplorer.ts:220-221 | an anchored backtracking match implies membership in the tokens' language |
| Glob.MatchHereComplete | src/testExplorer.ts:220-221 | membership in the tokens' language implies an anchored match |
| Glob.SearchIff | src/testExplorer.ts:220-221 | the unanchored `test` succeeds iff some substring of the name is in the tokens' language |
| Glob.SearchSound | src/testExplorer.ts:220-221 | a successful unanchored search yields bounds of a substring in the tokens' language |
| Glob.SearchComplete | src/testExplorer.ts:220-221 | any substring in the tokens' language makes the unanchored search succeed |
| Glob.LiteralSlashNeedsSlash | src/testExplorer.ts:212-222 | a token sequence with a literal `/` matches no slash-free text |
| Glob.DefaultPatternMatchesNoFileName | src/testExplorer.ts:212-222 | the default pattern `**/*Test.php` matches no name without `/` |
| Glob.StarFreeGlobMatchesItself | src/testExplorer.ts:212-222 | a glob without `*` and line breaks is in its own language (`?` and `.` both match any character but a line break) |
| Glob.StarSuffixMatches | src/testExplorer.ts:212-222 | `*` followed by a star-free suffix without line breaks matches every slash-free name ending in that suffix |
| Runner.DockerCommand | src/services/TestRunner.ts:417-433 | the command unchanged iff docker is off or has no image; otherwise exactly `docker exec <image> <command>`; the command is always the suffix |
| Runner.MethodCommand | src/services/TestRunner.ts:71-86 | contains `--filter "<Class>::<method>"` and ends with a space and the relative path; exactly `<command> --filter "<Class>::<method>" <path>` without docker and `docker exec <image> ` before that with docker |
| Runner.FileCommand | src/services/TestRunner.ts:112-178 | there is a command iff a workspace is open, the collection is cached and the file has cached methods; it is exactly `<command> --filter "<Class>" <path>` for the class of the file's first method, prefixed by `docker exec <image> ` with docker |
| Runner.CollectionCommand | src/services/TestRunner.ts:25-48 | there is a command iff a workspace is open; it is exactly the collection command, or `docker exec <image> <command>` with docker |
| Runner.Classify | src/services/TestRunner.ts:284-297 | `Passed` iff the output contains `OK (`; `Failed` iff not and there is `FAILURES!`, `ERRORS!` or a process error; otherwise `Unknown` |
| Runner.FileMethodStatus | src/services/TestRunner.ts:206-230 | always `Passed`, `Failed` or `Unknown`; a method whose name the output does not mention gets `Failed` on a process error and `Passed` otherwise; a mentioned one gets the whole-output OK/FAILURES verdict, with the same global fallback |
| Runner.ErrorSection | src/services/TestRunner.ts:296-321 | at most five lines, each a non-blank, non-marker line of the output; empty when there is no `FAILURES:`/`ERRORS:` marker |
| Runner.CaptureWindow | src/services/TestRunner.ts:309-320 | the capture phase keeps exactly the content lines of a window of what it reads; no blank line inside the window follows a kept line; the window ends at the end, at the fifth kept line, or at a blank line once a line is kept |
| Runner.ErrorSectionAfterFirstMarker | src/services/TestRunner.ts:300-307 | the section is what the capture phase keeps from the lines after the first marker line |
| Runner.ErrorSectionFirstLine | src/services/TestRunner.ts:300-315 | the section starts with the first content line after the first marker |
| Runner.ErrorSectionNonEmptyIff | src/services/TestRunner.ts:300-315 | the section is non-empty iff some content line follows the first marker |
| Runner.ErrorSectionWindow | src/services/TestRunner.ts:296-321 | the section is the content lines of one contiguous window after the first marker, ended by the end of the output, the fifth line kept, or a blank line after a kept one |
| Runner.CollectErrorSection | src/services/TestRunner.ts:296-321 | the loop with its `continue`/`break` exits computes exactly the recursive error section |
| Runner.StripNumbering | src/services/TestRunner.ts:323-324 | the result is a suffix of the line; it differs from the line iff the line starts with digits and `)`; the removed prefix is digits, `)` and whitespace |
| Runner.Diagnose | src/services/TestRunner.ts:283-332 | the status is the classification; no message unless failed; a failed run with a section gets its first line de-numbered and trimmed, and details whose lines are the section's first three; without a section, the process error's message |
| Runner.MethodRunEvents | src/services/TestRunner.ts:53-66 | no events without a workspace; otherwise a `Running` event, then one completion event (lines 338-356) with the classified status, the run time and the full output; class, name, file and collection unchanged |
| Runner.FileRunEvents | src/services/TestRunner.ts:180-248 | no events when no workspace is open, the collection is not cached or the file has no cached methods (the cases where no file command is built); otherwise one `Running` event per cached method of the file in cached order, then one completion event per method in the same order |
| Runner.SetStatusManually | src/services/TestRunner.ts:379-412 | a dismissed pick changes nothing; a pick sets the status and the time and leaves every other field alone; a choice other than `Failed` clears the message; `Failed` takes the typed message when it is non-empty and keeps the old one otherwise |
| Strings.TrimEmptyIffBlank | src/services/TestRunner.ts:310-313 | a line trims to empty iff it is all whitespace |
| Strings.JoinSplit | src/services/TestRunner.ts:300 | joining the split output with `\n` gives back the output |
| Strings.SplitJoin | src/services/TestRunner.ts:325 | splitting lines joined by `\n` gives back those lines when none contains `\n` |
| Types.FindMethod | src/testExplorer.ts:230-233 | the index of the first method with that class and name, or -1 when none has them |
| Types.MethodsOfFile | src/services/TestRunner.ts:145 | exactly the methods whose file path is the given path |
| CacheStore.Sanitize | src/services/CacheService.ts:50 | same length; every character in `[A-Za-z0-9_-]`; safe characters kept, others become `-` |
| CacheStore.SanitizeIdempotent | src/services/CacheService.ts:50 | sanitizing twice is sanitizing once |
| CacheStore.SanitizeFixedPoints | src/services/CacheService.ts:50 | a name is left unchanged iff all its characters are safe |
| CacheStore.Basename | src/services/CacheService.ts:42-44 | the last path segment: slash-free, a suffix of the path, preceded by `/` when shorter than the path |
| CacheStore.CacheFileName | src/services/CacheService.ts:38-52 | a non-empty workspace name gives `php-test-collections-cache-<sanitized name>.json`; otherwise several folders give the folders' base names joined by `-`; otherwise the default name; always ends in `.json` |
| CacheStore.CachePath | src/services/CacheService.ts:34-62 | under the first folder's `.vscode` directory when a folder is open, under global storage otherwise |
| CacheStore.NamedCacheFileIsSafe | src/services/CacheService.ts:49-52 | a workspace-named cache file's name before `.json` holds only safe characters |
| CacheStore.Revive | src/services/CacheService.ts:95-114 | an entry revives iff it has files and methods; its other fields are kept, and missing test-file summaries become `[]` |
| CacheStore.ReviveProject | src/services/CacheService.ts:95-155 | reviving a saved entry gives back the entry |
| CacheStore.ConvertEntries | src/services/CacheService.ts:94-121 | loading only adds names that occur in the document |
| CacheStore.ConvertKeepsPrefix | src/services/CacheService.ts:94-121 | every well-formed entry before the first malformed one is loaded under its name |
| CacheStore.KeyUntouched | src/services/CacheService.ts:94-121 | an already loaded name that the rest of the document does not mention keeps its entry |
| CacheStore.Load | src/services/CacheService.ts:83-125 | no cache file, or an unparsable one, loads as the empty index |
| CacheStore.ToDocument | src/services/CacheService.ts:140-156 | one stored entry per collection in the index's key order, projected, stamped with the save time (collection names that are array indices are the exception noted under Left out) |
| CacheStore.Save | src/services/CacheService.ts:130-165 | writes exactly the cache file and no other |
| CacheStore.LoadSave | src/services/CacheService.ts:83-165 | loading what was saved gives back the same index |
| CacheStore.ForceRefresh | src/services/CacheService.ts:67-78 | the cache file is gone and every other file is untouched |
| CacheStore.LoadAfterForceRefresh | src/services/CacheService.ts:67-89 | after a forced refresh the load yields the empty index |
| CacheStore.IsCacheStale | src/services/CacheService.ts:170-174 | stale iff more than thirty minutes have passed since the scan |
| CacheStore.StalenessBoundary | src/services/CacheService.ts:170-174 | exactly thirty minutes is fresh, one millisecond more is stale |
| Explorer.EffectivePattern | src/testExplorer.ts:158 | the collection's own pattern when it is non-empty, `**/*Test.php` when it is absent or empty |
| Explorer.GetPhpTestFiles | src/testExplorer.ts:181-210 | a path is found iff the directory exists and the path is a selected file reached through readable, fully statable directories |
| Explorer.ListingFilesIff | src/testExplorer.ts:181-210 | a path is found iff it is a `.php` file matching the pattern, reached through readable directories none of whose items fails to stat |
| Explorer.EntriesFilesIff | src/testExplorer.ts:189-203 | the items from position `i` on contribute exactly the paths one of them reaches |
| Explorer.EntryFilesIff | src/testExplorer.ts:190-202 | one item contributes exactly the paths it reaches |
| Explorer.DefaultPatternFindsNothing | src/testExplorer.ts:181-222 | under the default pattern the scan finds no file |
| Explorer.AnyFolderChanged | src/testExplorer.ts:159-174 | true iff some workspace folder's collection directory is missing or holds a different number of files than cached |
| Explorer.HasFileSystemChanges | src/testExplorer.ts:153-179 | false without workspace folders; otherwise true iff some folder changed |
| Explorer.ShouldRefreshCache | src/testExplorer.ts:140-151 | refresh iff the collection is not cached, the disk changed, or the scan is more than thirty minutes old |
| Explorer.RefreshAgreesWithCacheStaleness | src/testExplorer.ts:148-150 | when nothing changed on disk, the refresh decision is the cache service's staleness test |
| Explorer.Summaries | src/testExplorer.ts:375-387 | one summary per file, class `Unknown`, counting the file's parsed methods, other counters zero |
| Explorer.ScanFolders | src/testExplorer.ts:358-390 | the methods are the parse of the files found; one summary per file; a path is found iff some folder's scan finds it |
| Explorer.LoadCollectionMethods | src/testExplorer.ts:339-408 | the index is unchanged when no refresh is due or no folder is open; otherwise this collection's entry becomes a fresh scan, and every other entry is unchanged |
| Explorer.Rescanned | src/testExplorer.ts:358-408 | a fresh entry keeps the collection, is dated now, holds the parse of its files as methods and one summary per file; a path is among its files iff some workspace folder's scan finds it |
| Explorer.LoadCollectionMethodsKeys | src/testExplorer.ts:339-408 | with folders open, loading a collection adds its name to the keys and no other name |
| Explorer.LoadCollectionMethodsDates | src/testExplorer.ts:339-408 | loading a collection into an index whose entries are all dated now keeps every entry dated now |
| Explorer.ForceRefresh | src/testExplorer.ts:126-138 | without folders the index ends empty; with folders it holds exactly the configured collections, all scanned now |
| Explorer.LoadAllFresh | src/testExplorer.ts:272-287 | loading every collection into an index dated now changes nothing without folders; with folders it adds exactly the configured names; every entry stays dated now |
| Explorer.LoadCollections | src/testExplorer.ts:272-287 | without workspace folders the index is unchanged; with them exactly the configured names are added to the keys |
| Explorer.LoadCollectionsDates | src/testExplorer.ts:272-287 | loading all collections into an index dated now leaves every entry dated now |
| Explorer.CreateTestFiles | src/testExplorer.ts:410-439 | one summary per file in order, counting that file's methods, zero results; class from the file's first method, `Unknown` when it has none |
| Explorer.FileOf | src/testExplorer.ts:423-435 | the summary's class is the class of the file's first method, or `Unknown` |
| Explorer.FirstOfFile | src/testExplorer.ts:424-427 | the first method the file filter keeps is the file's first method |
| Explorer.GetFileMethods | src/testExplorer.ts:322-337 | nothing for an uncached collection; otherwise exactly the cached methods of the file |
| Explorer.MethodsOfFileAppend | src/testExplorer.ts:327 | filtering by file distributes over concatenation, so cached order is kept |
| Explorer.FilePaths | src/testExplorer.ts:294-317 | distinct paths; exactly the files that have cached methods |
| Explorer.CollectionFiles | src/testExplorer.ts:289-320 | nothing for an uncached collection; otherwise one distinct entry per file with cached methods |
| Explorer.UpdateTestStatus | src/testExplorer.ts:224-244 | a miss changes nothing; otherwise only the first matching method changes, getting the status, the time and the message; every other collection and method stays the same |
| Explorer.SetTestRunning | src/testExplorer.ts:488-501 | only the first matching method changes, and its status becomes `Unknown` |
| Explorer.ApplyUpdate | src/testExplorer.ts:446-470 | a run's update is the status update with the reported status, or `Unknown` when none is reported; the collection names stay the same |
| Explorer.MethodRunSettles | src/testExplorer.ts:446-457 | after both events of a single-method run, the method holds the classified status, the full output and the completion time |
| Explorer.FindMethodUnchanged | src/testExplorer.ts:230-233 | changing other fields of the found method keeps it the found method |

## Left out

- The VS Code host: tree items, icons, prompts, notifications, output channels, terminals and their disposal, the file watcher, logging and `extension.ts`. They are user interface or host wiring with no logic of the core.
- The collection run sends its command to a terminal and observes nothing, so only its command (`Runner.CollectionCommand`) is modelled.
- Process execution (`child_process.exec`) is the `Outcome` parameter. `stdout + stderr` is taken as one string.
- `path.relative` is a parameter. `path.join` and `path.basename` use `/` as the only separator, without normalisation.
- JSON text and `Date` values: a cache file is a parsed document or `Unparsable`, and dates are integer milliseconds. ISO rounding and invalid dates are not modelled.
- The cache file's write and delete errors, and the parent-directory creation, are not modelled. The file is written or removed.
- Runner.FileMethodStatus: the per-method `errorLines` of a file run are extracted but only logged, so the model leaves them out.
- Runner.Diagnose: `failureDetails` is computed but never stored in the method, and the model only states it.
- The order of `getCollectionFiles`'s groups after `localeCompare` sorting is not modelled. `Explorer.FilePaths` keeps first-appearance order.
- The interleaving of asynchronous operations (a rescan racing a run) is not modelled. Every operation is applied atomically to the index it is given.
- The shared mutation of one `TestMethod` object through several references is not modelled. Updates are written back into the index explicitly.
- Glob.MatchesPattern: only `*`, `?` and `.` are translated; every other character is read as a literal. A pattern with other regular-expression metacharacters, or one that makes `new RegExp` throw, is not modelled.
- Strings are sequences of Dafny `char`s, which are Unicode scalar values, while JavaScript strings are sequences of UTF-16 code units. The two readings agree on text without characters outside the Basic Multilingual Plane. With such a character they differ: `CacheStore.Sanitize` writes one `-` where the code writes two (one per surrogate), and a glob `?` matches the whole character where the code's `.` matches half of it. No case folding or normalisation is done.
- The `catch` blocks of `hasFileSystemChanges` and `loadCollectionMethods` guard against throws the modelled scan never produces. They are left out.
- `TestFile.lastRun`, which no modelled operation sets, is not part of the datatype.
- CacheStore.ToDocument: the entries are listed in the index's key order, but the code writes them into a plain object, and a JavaScript object lists array-index keys (`"0"`, `"42"`) first, in ascending numeric order, before the other keys in insertion order. A collection whose name is an array index is therefore written, and read back, ahead of its place in the index order. The round trip `CacheStore.LoadSave` is proved for every order of the keys, so it covers the order the code writes.
- A collection named `__proto__` (a JavaScript object key quirk in the cache document) is not modelled.
- A stored collection without `lastScan` is not modelled. Every stored entry has a timestamp.
- The duplicate `buildDockerCommand` in `src/testExplorer.ts:504-518` is the same function as `Runner.DockerCommand` and is not modelled twice.
- No concrete PHP text (a `CalculatorTest` file, say) is worked through as a proved instance. Evaluating the matchers on a literal text is too costly for the verifier. The parser is described only by the general lemmas above.
- Parser.ConventionNames: its own contract states what each name is and that some name is found. The order, the leftmost-match rule and completeness are stated by `Parser.ConventionNamesInOrder`, `Parser.ExecStartsLeftmost` and `Parser.DeclaredTestFound`, because `ConventionNames` is `Parser.ExecLoop` over the convention matcher.
- Parser.AnnotatedNames: its own contract states what each name is and that some name is found. The order and completeness are stated by `Parser.AnnotatedNamesInOrder`, `Parser.ExecStartsLeftmost` and `Parser.AnnotatedTestFound`.
- Parser.ExtractTestMethods: its own contract leaves the order of the annotated suffix open. `Parser.ExtractTestMethodsNames` states it.
- Runner.ErrorSection: its own contract does not say which lines are kept. `Runner.ErrorSectionWindow` and `Runner.ErrorSectionFirstLine` state the window after the first marker.

=== FILE: cache.dfy ===
/** The persistent cache of src/services/CacheService.ts: where the cache file
    lives, and how the in-memory index is projected to and from the cache
    document.

    The document is the parsed JSON value, not its text: a `Store` maps a file
    path to what `JSON.parse` makes of the file, and dates are whole
    milliseconds, which is what `toISOString` followed by `new Date` keeps. */
module CacheStore {
  import opened Options
  import opened Strings
  import opened Types

  // ------------------------------------------------------------ file naming

  const CachePrefix: string := "php-test-collections-cache"
  const DefaultCacheFileName: string := "php-test-collections-cache.json"

  /** The characters `[a-zA-Z0-9-_]` lets through. */
  predicate IsSafeChar(c: char) {
    ('a' <= c <= 'z') || ('A' <= c <= 'Z') || ('0' <= c <= '9') || c == '-' || c == '_'
  }

  /** `name.replace(/[^a-zA-Z0-9-_]/g, '-')`. */
  function Sanitize(name: string): (r: string)
    ensures |r| == |name|
    ensures forall i :: 0 <= i < |r| ==> IsSafeChar(r[i])
    ensures forall i :: 0 <= i < |r| ==> (IsSafeChar(name[i]) ==> r[i] == name[i]) && (!IsSafeChar(name[i]) ==> r[i] == '-')
  {
    seq(|name|, i requires 0 <= i < |name| => if IsSafeChar(name[i]) then name[i] else '-')
  }

  /** Sanitising twice is sanitising once. */
  lemma SanitizeIdempotent(name: string)
    ensures Sanitize(Sanitize(name)) == Sanitize(name)
  {
  }

  /** A name is left alone exactly when it has no character to replace. */
  lemma SanitizeFixedPoints(name: string)
    ensures Sanitize(name) == name <==> forall i :: 0 <= i < |name| ==> IsSafeChar(name[i])
  {
    if Sanitize(name) == name {
      forall i | 0 <= i < |name| ensures IsSafeChar(name[i]) {
        assert Sanitize(name)[i] == name[i];
      }
    }
  }

  /** `path.basename` of a path with no trailing separator: its last segment. */
  function Basename(path: string): (r: string)
    ensures '/' !in r
    ensures EndsWith(path, r)
    ensures |r| < |path| ==> path[|path| - |r| - 1] == '/'
  {
    var j := SegmentStart(path, |path|);
    path[j..]
  }

  /** Where the segment ending at `n` starts: just after the last `/` before `n`. */
  function SegmentStart(path: string, n: nat): (j: nat)
    requires n <= |path|
    ensures j <= n
    ensures forall k :: j <= k < n ==> path[k] != '/'
    ensures j == 0 || path[j - 1] == '/'
  {
    if n == 0 then 0
    else if path[n - 1] == '/' then n
    else SegmentStart(path, n - 1)
  }

  /** The cache file name of `initializeCachePath`, for a non-empty list of
      workspace folders: the default name, the folders' base names joined by
      `-` when there are several, and the sanitised workspace name when the
      workspace has a non-empty one, which wins over both. */
  function CacheFileName(folders: seq<string>, workspaceName: Option<string>): (r: string)
    ensures workspaceName.Some? && workspaceName.value != [] ==>
              r == CachePrefix + "-" + Sanitize(workspaceName.value) + ".json"
    ensures !(workspaceName.Some? && workspaceName.value != []) && |folders| > 1 ==>
              r == CachePrefix + "-" + Join(BaseNames(folders), '-') + ".json"
    ensures !(workspaceName.Some? && workspaceName.value != []) && |folders| <= 1 ==> r == DefaultCacheFileName
    ensures EndsWith(r, ".json")
  {
    if workspaceName.Some? && workspaceName.value != [] then CachePrefix + "-" + Sanitize(workspaceName.value) + ".json"
    else if |folders| > 1 then CachePrefix + "-" + Join(BaseNames(folders), '-') + ".json"
    else DefaultCacheFileName
  }

  function BaseNames(folders: seq<string>): (r: seq<string>)
    ensures |r| == |folders| && forall i :: 0 <= i < |r| ==> r[i] == Basename(folders[i])
  {
    seq(|folders|, i requires 0 <= i < |folders| => Basename(folders[i]))
  }

  /** The cache file path: under `.vscode` of the first workspace folder, or in
      the extension's global storage with the default name when no folder is open. */
  function CachePath(folders: seq<string>, workspaceName: Option<string>, globalStorage: string): (r: string)
    ensures folders != [] ==> r == folders[0] + "/.vscode/" + CacheFileName(folders, workspaceName)
    ensures folders == [] ==> r == globalStorage + "/" + DefaultCacheFileName
    ensures r != []
  {
    if folders != [] then folders[0] + "/.vscode/" + CacheFileName(folders, workspaceName)
    else globalStorage + "/" + DefaultCacheFileName
  }

  /** With a workspace name, the cache file name is made of safe characters and
      the `.json` extension only, whatever the name held. */
  lemma NamedCacheFileIsSafe(folders: seq<string>, name: string)
    requires name != []
    ensures var r := CacheFileName(folders, Some(name));
            forall i :: 0 <= i < |r| - 5 ==> IsSafeChar(r[i])
  {
    var r := CacheFileName(folders, Some(name));
    var s := Sanitize(name);
    assert r == (CachePrefix + "-") + s + ".json";
    forall i | 0 <= i < |r| - 5 ensures IsSafeChar(r[i]) {
      if i < |CachePrefix| + 1 {
        assert r[i] == (CachePrefix + "-")[i];
      } else {
        assert r[i] == s[i - |CachePrefix| - 1];
      }
    }
  }

  // --------------------------------------------------------- the document

  /** One collection as stored. `files` and `methods` may be missing from a
      damaged file; `testFiles` is missing from files written by older versions. */
  datatype StoredCollection = StoredCollection(
    collection: Collection,
    files: Option<seq<string>>,
    methods: Option<seq<TestMethod>>,
    testFiles: Option<seq<TestFile>>,
    lastScan: Millis)

  /** `JsonCacheData`: the collections in key order, and the save time.
      `collections` is `None` when the parsed value has no such member. */
  datatype Document = Document(collections: Option<seq<(string, StoredCollection)>>, lastUpdate: Millis)

  /** What reading and parsing the cache file gives. */
  datatype StoredFile = Unparsable | Parsed(doc: Document)

  /** The file system as far as the cache is concerned: path to file. */
  type Store = map<string, StoredFile>

  /** The stored form of one entry of the index. */
  function Project(c: CachedCollection): (r: StoredCollection)
    ensures r.files == Some(c.files) && r.methods == Some(c.methods) && r.testFiles == Some(c.testFiles)
    ensures r.collection == c.collection && r.lastScan == c.lastScan
  {
    StoredCollection(c.collection, Some(c.files), Some(c.methods), Some(c.testFiles), c.lastScan)
  }

  /** The in-memory form of one stored collection, when it is well formed.
      A missing `testFiles` loads as no test file. */
  function Revive(s: StoredCollection): (r: Option<CachedCollection>)
    ensures r.Some? <==> s.files.Some? && s.methods.Some?
    ensures r.Some? ==>
              r.value.collection == s.collection && r.value.files == s.files.value
              && r.value.methods == s.methods.value && r.value.lastScan == s.lastScan
              && r.value.testFiles == (if s.testFiles.Some? then s.testFiles.value else [])
  {
    if s.methods.None? || s.files.None? then None
    else Some(CachedCollection(s.collection, s.files.value, s.methods.value, s.testFiles.GetOr([]), s.lastScan))
  }

  /** Reviving a projected entry gives the entry back. */
  lemma ReviveProject(c: CachedCollection)
    ensures Revive(Project(c)) == Some(c)
  {
  }

  /** The conversion loop of `loadCache`: entries go into the map in order, and
      the first malformed entry throws, which leaves the map as it stands. */
  function ConvertEntries(entries: seq<(string, StoredCollection)>, acc: Index): (r: Index)
    ensures acc.Keys <= r.Keys
    ensures forall k :: k in r ==> k in acc || exists i :: 0 <= i < |entries| && entries[i].0 == k
  {
    if entries == [] then acc
    else
      match Revive(entries[0].1)
      case None => acc
      case Some(c) => ConvertEntries(entries[1..], acc[entries[0].0 := c])
  }

  /** `loadCache`: an empty map with no path, no file, an unparsable file or a
      document without collections; otherwise the converted entries. */
  function Load(path: string, store: Store): (r: Index)
    ensures path == [] || path !in store ==> r == map[]
    ensures path in store && store[path].Unparsable? ==> r == map[]
  {
    if path == [] || path !in store then map[]
    else match store[path]
      case Unparsable => map[]
      case Parsed(doc) =>
        match doc.collections
        case None => map[]
        case Some(entries) => ConvertEntries(entries, map[])
  }

  /** The document `saveCache` writes; `keys` is the index's key order. */
  function ToDocument(index: Index, keys: seq<string>, now: Millis): (r: Document)
    requires forall i :: 0 <= i < |keys| ==> keys[i] in index
    ensures r.collections.Some? && |r.collections.value| == |keys|
    ensures forall i :: 0 <= i < |keys| ==> r.collections.value[i] == (keys[i], Project(index[keys[i]]))
    ensures r.lastUpdate == now
  {
    Document(Some(ProjectEntries(index, keys)), now)
  }

  /** `keys` lists every key of the index once: the iteration order of a `Map`. */
  ghost predicate IsKeyOrder(index: Index, keys: seq<string>) {
    (forall k :: k in index <==> k in keys)
    && (forall i, j :: 0 <= i < j < |keys| ==> keys[i] != keys[j])
  }

  /** `saveCache`: nothing happens without a path; otherwise the file holds the
      projected index. */
  function Save(path: string, store: Store, index: Index, keys: seq<string>, now: Millis): (r: Store)
    requires IsKeyOrder(index, keys)
    ensures path == [] ==> r == store
    ensures path != [] ==> r.Keys == store.Keys + {path} && r[path] == Parsed(ToDocument(index, keys, now))
    ensures forall p :: p in store && p != path ==> p in r && r[p] == store[p]
  {
    if path == [] then store else store[path := Parsed(ToDocument(index, keys, now))]
  }

  /** The entries `saveCache` writes for the given keys, in their order. */
  function ProjectEntries(index: Index, keys: seq<string>): (r: seq<(string, StoredCollection)>)
    requires forall i :: 0 <= i < |keys| ==> keys[i] in index
    ensures |r| == |keys| && forall i :: 0 <= i < |keys| ==> r[i] == (keys[i], Project(index[keys[i]]))
  {
    seq(|keys|, i requires 0 <= i < |keys| => (keys[i], Project(index[keys[i]])))
  }

  /** Converting the projections of distinct keys rebuilds their entries on top
      of what the map already held. */
  lemma {:induction false} ConvertProjected(index: Index, keys: seq<string>, acc: Index)
    requires forall i :: 0 <= i < |keys| ==> keys[i] in index
    requires forall i, j :: 0 <= i < j < |keys| ==> keys[i] != keys[j]
    ensures var r := ConvertEntries(ProjectEntries(index, keys), acc);
            && (forall k :: k in r <==> k in acc || k in keys)
            && (forall k :: k in keys ==> r[k] == index[k])
            && (forall k :: k in acc && k !in keys ==> r[k] == acc[k])
  {
    var entries := ProjectEntries(index, keys);
    if keys != [] {
      var k0 := keys[0];
      ReviveProject(index[k0]);
      assert entries[0] == (k0, Project(index[k0]));
      assert entries[1..] == ProjectEntries(index, keys[1..]);
      var acc' := acc[k0 := index[k0]];
      assert ConvertEntries(entries, acc) == ConvertEntries(entries[1..], acc');
      ConvertProjected(index, keys[1..], acc');
      assert k0 !in keys[1..];
      forall k | k in keys ensures k == k0 || k in keys[1..] {
        var i :| 0 <= i < |keys| && keys[i] == k;
        if i > 0 { assert keys[1..][i - 1] == k; }
      }
    }
  }

  /** `loadCache` after `saveCache` gives back the saved index: the same keys,
      collections, file lists, methods with their status, times and messages,
      test files and scan times. */
  lemma LoadSave(path: string, store: Store, index: Index, keys: seq<string>, now: Millis)
    requires path != [] && IsKeyOrder(index, keys)
    ensures Load(path, Save(path, store, index, keys, now)) == index
  {
    assert ToDocument(index, keys, now).collections == Some(ProjectEntries(index, keys));
    ConvertProjected(index, keys, map[]);
    var r := Load(path, Save(path, store, index, keys, now));
    assert r.Keys == index.Keys;
  }

  /** A malformed entry loses itself and what follows it, never what came before. */
  lemma {:induction false} ConvertKeepsPrefix(entries: seq<(string, StoredCollection)>, acc: Index, n: nat)
    requires n <= |entries|
    requires forall i :: 0 <= i < n ==> Revive(entries[i].1).Some?
    requires forall i, j :: 0 <= i < j < |entries| ==> entries[i].0 != entries[j].0
    ensures forall i :: 0 <= i < n ==>
              entries[i].0 in ConvertEntries(entries, acc)
              && Some(ConvertEntries(entries, acc)[entries[i].0]) == Revive(entries[i].1)
  {
    if n > 0 {
      var k0 := entries[0].0;
      var c := Revive(entries[0].1).value;
      var rest := ConvertEntries(entries[1..], acc[k0 := c]);
      assert ConvertEntries(entries, acc) == rest;
      ConvertKeepsPrefix(entries[1..], acc[k0 := c], n - 1);
      KeyUntouched(entries[1..], acc[k0 := c], k0);
    }
  }

  /** A key that no later entry names keeps its value through the conversion. */
  lemma {:induction false} KeyUntouched(entries: seq<(string, StoredCollection)>, acc: Index, k: string)
    requires k in acc
    requires forall i :: 0 <= i < |entries| ==> entries[i].0 != k
    ensures k in ConvertEntries(entries, acc) && ConvertEntries(entries, acc)[k] == acc[k]
  {
    if entries != [] && Revive(entries[0].1).Some? {
      KeyUntouched(entries[1..], acc[entries[0].0 := Revive(entries[0].1).value], k);
    }
  }

  /** `forceRefresh`: the cache file, if there is one, is deleted. */
  function ForceRefresh(path: string, store: Store): (r: Store)
    ensures path !in r || path == []
    ensures forall p :: p in store && p != path ==> p in r && r[p] == store[p]
    ensures r.Keys <= store.Keys
  {
    if path != [] && path in store then store - {path} else store
  }

  /** After `forceRefresh`, `loadCache` finds nothing. */
  lemma LoadAfterForceRefresh(path: string, store: Store)
    ensures Load(path, ForceRefresh(path, store)) == map[]
  {
  }

  /** `isCacheStale`: strictly older than thirty minutes before `now`. */
  function IsCacheStale(lastScan: Millis, now: Millis): (r: bool)
    ensures r <==> now - lastScan > FreshnessWindow
  {
    lastScan < now - FreshnessWindow
  }

  /** A scan exactly thirty minutes old is still fresh; one millisecond more and it is stale. */
  lemma StalenessBoundary(now: Millis)
    ensures !IsCacheStale(now - 30 * 60 * 1000, now)
    ensures IsCacheStale(now - 30 * 60 * 1000 - 1, now)
  {
  }
}

=== FILE: explorer.dfy ===
/** The test explorer of src/testExplorer.ts without its tree-view plumbing:
    the directory scan for test files, the decision to rescan a collection,
    the rescan itself, the grouping of cached methods by file, and the status
    updates that run callbacks apply to the in-memory index.

    The file system is a `Disk`: every existing path the scan lists, each
    with what listing it yields, and the text of every readable file. A plain
    file at such a path passes `existsSync` but makes `readdirSync` throw, so
    it is recorded as `Unreadable`. Paths are joined
    with a single `/`. Every operation returns the new index; the explorer
    saves the index it returns with `saveCache`, which CacheStore models. */
module Explorer {
  import opened Options
  import opened Strings
  import opened Seqs
  import opened Types
  import opened Glob
  import opened Parser
  import opened Runner
  import CacheStore

  // ----------------------------------------------------------- file system

  /** An item of a directory listing, as `fs.statSync` classifies it.
      `Other` is neither a file nor a directory; `Unstatable` makes `statSync` throw. */
  datatype Entry =
    | File(name: string)
    | Dir(name: string, listing: Listing)
    | Other(name: string)
    | Unstatable(name: string)

  /** What `fs.readdirSync` gives for a directory: its items, or an error. */
  datatype Listing = Listed(entries: seq<Entry>) | Unreadable

  /** Every existing path the scan lists, with its listing (`Unreadable` for a
      plain file or a directory that cannot be read), and readable files with their text. */
  datatype Disk = Disk(dirs: map<string, Listing>, contents: map<string, string>)

  /** `path.join` of a directory and a relative path. */
  function JoinPath(dir: string, name: string): string {
    dir + "/" + name
  }

  /** The collection's pattern, or the default one when it is absent or empty. */
  function EffectivePattern(c: Collection): (r: string)
    ensures r != []
    ensures c.pattern.Some? && c.pattern.value != [] ==> r == c.pattern.value
    ensures !(c.pattern.Some? && c.pattern.value != []) ==> r == DefaultPattern
  {
    if c.pattern.Some? && c.pattern.value != [] then c.pattern.value else DefaultPattern
  }

  /** A directory item the scan keeps: a `.php` name that matches the pattern. */
  predicate Selected(name: string, pattern: string) {
    EndsWith(name, ".php") && MatchesPattern(name, pattern)
  }

  predicate AllStatable(entries: seq<Entry>) {
    forall i :: 0 <= i < |entries| ==> !entries[i].Unstatable?
  }

  // -------------------------------------------------------- directory scan

  /** `getPhpTestFiles` on a directory that exists: an unreadable directory or
      an item whose `statSync` throws makes this directory's call give `[]`;
      otherwise its items contribute in listing order. */
  function ListingFiles(dirPath: string, l: Listing, pattern: string): seq<string>
    decreases l, 1
  {
    match l
    case Unreadable => []
    case Listed(entries) => if AllStatable(entries) then EntriesFiles(dirPath, l, 0, pattern) else []
  }

  function EntriesFiles(dirPath: string, l: Listing, i: nat, pattern: string): seq<string>
    requires l.Listed? && i <= |l.entries|
    decreases l, 0, |l.entries| - i
  {
    if i == |l.entries| then []
    else EntryFiles(dirPath, l.entries[i], pattern) + EntriesFiles(dirPath, l, i + 1, pattern)
  }

  /** A directory is scanned recursively (its own errors stay inside it); a
      selected file contributes its path; anything else contributes nothing. */
  function EntryFiles(dirPath: string, e: Entry, pattern: string): seq<string>
    decreases e
  {
    match e
    case File(name) => if Selected(name, pattern) then [JoinPath(dirPath, name)] else []
    case Dir(name, sub) => ListingFiles(JoinPath(dirPath, name), sub, pattern)
    case Other(_) => []
    case Unstatable(_) => []
  }

  /** `getPhpTestFiles(dirPath, pattern)`: nothing when the directory does not exist. */
  function GetPhpTestFiles(dirPath: string, disk: Disk, pattern: string): (r: seq<string>)
    ensures forall p :: p in r <==> dirPath in disk.dirs && Reaches(dirPath, disk.dirs[dirPath], pattern, p)
  {
    if dirPath in disk.dirs then
      assert forall p :: p in ListingFiles(dirPath, disk.dirs[dirPath], pattern) <==> Reaches(dirPath, disk.dirs[dirPath], pattern, p) by {
        forall p ensures p in ListingFiles(dirPath, disk.dirs[dirPath], pattern) <==> Reaches(dirPath, disk.dirs[dirPath], pattern, p) {
          ListingFilesIff(dirPath, disk.dirs[dirPath], pattern, p);
        }
      }
      ListingFiles(dirPath, disk.dirs[dirPath], pattern)
    else []
  }

  /** The reference reading of the scan: `p` is the path of a selected file
      reached through directories that are all readable and fully statable. */
  ghost predicate Reaches(dirPath: string, l: Listing, pattern: string, p: string)
    decreases l
  {
    l.Listed? && AllStatable(l.entries)
    && exists i :: 0 <= i < |l.entries| && EntryReaches(dirPath, l.entries[i], pattern, p)
  }

  ghost predicate EntryReaches(dirPath: string, e: Entry, pattern: string, p: string)
    decreases e
  {
    match e
    case File(name) => Selected(name, pattern) && p == JoinPath(dirPath, name)
    case Dir(name, sub) => Reaches(JoinPath(dirPath, name), sub, pattern, p)
    case Other(_) => false
    case Unstatable(_) => false
  }

  /** The scan finds exactly the reachable selected files. */
  lemma {:induction false} ListingFilesIff(dirPath: string, l: Listing, pattern: string, p: string)
    ensures p in ListingFiles(dirPath, l, pattern) <==> Reaches(dirPath, l, pattern, p)
    decreases l, 1
  {
    if l.Listed? && AllStatable(l.entries) {
      EntriesFilesIff(dirPath, l, 0, pattern, p);
    }
  }

  lemma {:induction false} EntriesFilesIff(dirPath: string, l: Listing, i: nat, pattern: string, p: string)
    requires l.Listed? && i <= |l.entries|
    ensures p in EntriesFiles(dirPath, l, i, pattern)
            <==> exists j :: i <= j < |l.entries| && EntryReaches(dirPath, l.entries[j], pattern, p)
    decreases l, 0, |l.entries| - i
  {
    if i < |l.entries| {
      EntryFilesIff(dirPath, l.entries[i], pattern, p);
      EntriesFilesIff(dirPath, l, i + 1, pattern, p);
      if exists j :: i <= j < |l.entries| && EntryReaches(dirPath, l.entries[j], pattern, p) {
        var j :| i <= j < |l.entries| && EntryReaches(dirPath, l.entries[j], pattern, p);
        assert j == i || (i + 1 <= j < |l.entries| && EntryReaches(dirPath, l.entries[j], pattern, p));
      }
    }
  }

  lemma {:induction false} EntryFilesIff(dirPath: string, e: Entry, pattern: string, p: string)
    ensures p in EntryFiles(dirPath, e, pattern) <==> EntryReaches(dirPath, e, pattern, p)
    decreases e
  {
    match e
    case File(name) =>
    case Dir(name, sub) => ListingFilesIff(JoinPath(dirPath, name), sub, pattern, p);
    case Other(_) =>
    case Unstatable(_) =>
  }

  /** Names in the tree are single path segments, as `readdirSync` returns them. */
  ghost predicate SegmentNames(l: Listing)
    decreases l
  {
    l.Listed? ==> forall i :: 0 <= i < |l.entries| ==> EntrySegmentNames(l.entries[i])
  }

  ghost predicate EntrySegmentNames(e: Entry)
    decreases e
  {
    '/' !in e.name && (e.Dir? ==> SegmentNames(e.listing))
  }

  /** Under the default pattern the scan finds no file at all: the pattern's
      expression needs a `/`, and it is tested against bare names. */
  lemma DefaultPatternFindsNothing(dirPath: string, l: Listing, p: string)
    requires SegmentNames(l)
    ensures p !in ListingFiles(dirPath, l, DefaultPattern)
  {
    ListingFilesIff(dirPath, l, DefaultPattern, p);
    NothingReachedUnderDefault(dirPath, l, p);
  }

  lemma {:induction false} NothingReachedUnderDefault(dirPath: string, l: Listing, p: string)
    requires SegmentNames(l)
    ensures !Reaches(dirPath, l, DefaultPattern, p)
    decreases l
  {
    if Reaches(dirPath, l, DefaultPattern, p) {
      var i :| 0 <= i < |l.entries| && EntryReaches(dirPath, l.entries[i], DefaultPattern, p);
      var e := l.entries[i];
      assert EntrySegmentNames(e);
      match e
      case File(name) =>
        DefaultPatternMatchesNoFileName(name);
      case Dir(name, sub) =>
        NothingReachedUnderDefault(JoinPath(dirPath, name), sub, p);
    }
  }

  // ---------------------------------------------------------- staleness

  /** The part of `hasFileSystemChanges` that looks at one workspace folder:
      the collection's directory is gone, or its file count differs from the
      cached total. */
  predicate FolderChanged(folder: string, c: Collection, cachedCount: nat, disk: Disk) {
    var root := JoinPath(folder, c.path);
    root !in disk.dirs || |GetPhpTestFiles(root, disk, EffectivePattern(c))| != cachedCount
  }

  function AnyFolderChanged(folders: seq<string>, c: Collection, cachedCount: nat, disk: Disk): (r: bool)
    ensures r <==> exists i :: 0 <= i < |folders| && FolderChanged(folders[i], c, cachedCount, disk)
  {
    if folders == [] then false
    else if FolderChanged(folders[0], c, cachedCount, disk) then true
    else
      var r := AnyFolderChanged(folders[1..], c, cachedCount, disk);
      assert forall i :: 1 <= i < |folders| ==> folders[i] == folders[1..][i - 1];
      r
  }

  /** `hasFileSystemChanges`: false without workspace folders (`None`); true
      as soon as one folder has changed, checking the folders in order. */
  function HasFileSystemChanges(workspace: Option<seq<string>>, c: Collection, cached: CachedCollection, disk: Disk): (r: bool)
    ensures workspace.None? ==> !r
    ensures workspace.Some? ==>
              (r <==> exists i :: 0 <= i < |workspace.value| && FolderChanged(workspace.value[i], c, |cached.files|, disk))
  {
    workspace.Some? && AnyFolderChanged(workspace.value, c, |cached.files|, disk)
  }

  /** `shouldRefreshCache`: no entry, a change on disk, or a scan strictly
      older than thirty minutes. */
  function ShouldRefreshCache(index: Index, c: Collection, workspace: Option<seq<string>>, disk: Disk, now: Millis): (r: bool)
    ensures c.name !in index ==> r
    ensures c.name in index ==>
              (r <==> HasFileSystemChanges(workspace, c, index[c.name], disk) || index[c.name].lastScan < now - FreshnessWindow)
  {
    c.name !in index
    || HasFileSystemChanges(workspace, c, index[c.name], disk)
    || index[c.name].lastScan < now - 30 * 60 * 1000
  }

  /** The explorer's own age test and the cache service's agree. */
  lemma RefreshAgreesWithCacheStaleness(index: Index, c: Collection, workspace: Option<seq<string>>, disk: Disk, now: Millis)
    requires c.name in index && !HasFileSystemChanges(workspace, c, index[c.name], disk)
    ensures ShouldRefreshCache(index, c, workspace, disk, now) == CacheStore.IsCacheStale(index[c.name].lastScan, now)
  {
  }

  // ------------------------------------------------------------- rescans

  /** The summary a rescan records for one file: class `Unknown`, the file's
      method count, every other counter zero. */
  function FileSummary(path: string, c: Collection, count: nat): TestFile {
    TestFile(path, "Unknown", c, None, count, 0, 0, 0, 0, 0)
  }

  function Summaries(paths: seq<string>, disk: Disk, c: Collection): (r: seq<TestFile>)
    ensures |r| == |paths|
    ensures forall i :: 0 <= i < |paths| ==>
              r[i] == FileSummary(paths[i], c, |ParsePhpTestFile(paths[i], ReadFile(disk.contents, paths[i]), c)|)
  {
    MapSeq(SummaryIn(disk, c), paths)
  }

  /** The summary step of a rescan for one path: parse the file and count. */
  function SummaryIn(disk: Disk, c: Collection): string -> TestFile {
    p => FileSummary(p, c, |ParsePhpTestFile(p, ReadFile(disk.contents, p), c)|)
  }

  /** What a rescan gathers. */
  datatype Scan = Scan(files: seq<string>, methods: seq<TestMethod>, testFiles: seq<TestFile>)

  /** The folder loop of `loadCollectionMethods`: each folder whose collection
      directory exists adds its files, their methods and one summary per file. */
  function ScanFolders(folders: seq<string>, c: Collection, disk: Disk): (r: Scan)
    ensures r.methods == ParseMultipleFiles(r.files, disk.contents, c)
    ensures r.testFiles == Summaries(r.files, disk, c)
    ensures forall p :: p in r.files <==>
              exists i :: 0 <= i < |folders| && p in GetPhpTestFiles(JoinPath(folders[i], c.path), disk, EffectivePattern(c))
  {
    if folders == [] then Scan([], [], [])
    else
      var here := GetPhpTestFiles(JoinPath(folders[0], c.path), disk, EffectivePattern(c));
      var rest := ScanFolders(folders[1..], c, disk);
      ParseMultipleFilesConcat(here, rest.files, disk.contents, c);
      MapSeqConcat(SummaryIn(disk, c), here, rest.files);
      assert forall i :: 1 <= i < |folders| ==> folders[i] == folders[1..][i - 1];
      Scan(here + rest.files, ParseMultipleFiles(here, disk.contents, c) + rest.methods,
           Summaries(here, disk, c) + rest.testFiles)
  }

  /** The entry a rescan of the workspace folders builds for a collection, dated `now`. */
  function Rescanned(folders: seq<string>, c: Collection, disk: Disk, now: Millis): (r: CachedCollection)
    ensures r.collection == c && r.lastScan == now
    ensures r.methods == ParseMultipleFiles(r.files, disk.contents, c)
    ensures r.testFiles == Summaries(r.files, disk, c)
    ensures forall p :: p in r.files <==>
              exists i :: 0 <= i < |folders| && p in GetPhpTestFiles(JoinPath(folders[i], c.path), disk, EffectivePattern(c))
  {
    var s := ScanFolders(folders, c, disk);
    CachedCollection(c, s.files, s.methods, s.testFiles, now)
  }

  /** `loadCollectionMethods`: a collection that needs no refresh, or a window
      without workspace folders, leaves the index alone; otherwise the
      collection's entry is replaced wholesale by a fresh scan dated `now`. */
  function LoadCollectionMethods(index: Index, c: Collection, workspace: Option<seq<string>>, disk: Disk, now: Millis): (r: Index)
    ensures workspace.None? ==> r == index
    ensures !ShouldRefreshCache(index, c, workspace, disk, now) ==> r == index
    ensures forall k :: k in index && k != c.name ==> k in r && r[k] == index[k]
    ensures ShouldRefreshCache(index, c, workspace, disk, now) && workspace.Some? ==>
              c.name in r && r[c.name] == Rescanned(workspace.value, c, disk, now)
  {
    if workspace.Some? && ShouldRefreshCache(index, c, workspace, disk, now) then
      index[c.name := Rescanned(workspace.value, c, disk, now)]
    else index
  }

  /** With workspace folders, loading a collection leaves exactly its name added to the keys. */
  lemma LoadCollectionMethodsKeys(index: Index, c: Collection, workspace: Option<seq<string>>, disk: Disk, now: Millis)
    ensures workspace.Some? ==> LoadCollectionMethods(index, c, workspace, disk, now).Keys == index.Keys + {c.name}
  {
    if workspace.Some? && !ShouldRefreshCache(index, c, workspace, disk, now) {
      assert c.name in index;
    }
  }

  /** `loadCollections`: every configured collection in order. Without workspace
      folders nothing changes; with them exactly the configured names are added. */
  function LoadCollections(index: Index, cs: seq<Collection>, workspace: Option<seq<string>>, disk: Disk, now: Millis): (r: Index)
    ensures workspace.None? ==> r == index
    ensures workspace.Some? ==> r.Keys == index.Keys + ConfiguredNames(cs)
    decreases |cs|
  {
    if cs == [] then index
    else
      LoadCollectionMethodsKeys(index, cs[0], workspace, disk, now);
      ConfiguredNamesCons(cs);
      LoadCollections(LoadCollectionMethods(index, cs[0], workspace, disk, now), cs[1..], workspace, disk, now)
  }

  /** The names of the configured collections. */
  function ConfiguredNames(cs: seq<Collection>): set<string> {
    set i | 0 <= i < |cs| :: cs[i].name
  }

  /** `forceRefresh` of the explorer: the in-memory index is dropped (and the
      cache file deleted, see CacheStore.ForceRefresh) before every collection
      is loaded again. */
  function ForceRefresh(cs: seq<Collection>, workspace: Option<seq<string>>, disk: Disk, now: Millis): (r: Index)
    ensures workspace.None? ==> r == map[]
    ensures workspace.Some? ==>
              (forall k :: k in r <==> exists i :: 0 <= i < |cs| && cs[i].name == k)
              && (forall k :: k in r ==> r[k].lastScan == now)
  {
    LoadAllFresh(map[], cs, workspace, disk, now);
    LoadCollections(map[], cs, workspace, disk, now)
  }

  /** Loading from an index whose entries all date from `now` adds exactly the
      configured names, all dated `now`; without workspace folders it adds nothing. */
  lemma LoadAllFresh(index: Index, cs: seq<Collection>, workspace: Option<seq<string>>, disk: Disk, now: Millis)
    requires AllDated(index, now)
    ensures var r := LoadCollections(index, cs, workspace, disk, now);
            && (workspace.None? ==> r == index)
            && (workspace.Some? ==> r.Keys == index.Keys + ConfiguredNames(cs))
            && AllDated(r, now)
  {
    LoadCollectionsDates(index, cs, workspace, disk, now);
  }

  /** Every entry of the index was scanned at `now`. */
  predicate AllDated(index: Index, now: Millis) {
    forall k :: k in index ==> index[k].lastScan == now
  }

  /** Loading one collection into an index dated `now` keeps it dated `now`. */
  lemma LoadCollectionMethodsDates(index: Index, c: Collection, workspace: Option<seq<string>>, disk: Disk, now: Millis)
    requires AllDated(index, now)
    ensures AllDated(LoadCollectionMethods(index, c, workspace, disk, now), now)
  {
    if ShouldRefreshCache(index, c, workspace, disk, now) && workspace.Some? {
      var e := Rescanned(workspace.value, c, disk, now);
      assert e.lastScan == now;
      assert LoadCollectionMethods(index, c, workspace, disk, now) == index[c.name := e];
    }
  }

  /** Loading into an index dated `now` leaves every entry dated `now`. */
  lemma {:induction false} LoadCollectionsDates(index: Index, cs: seq<Collection>, workspace: Option<seq<string>>, disk: Disk, now: Millis)
    requires AllDated(index, now)
    ensures AllDated(LoadCollections(index, cs, workspace, disk, now), now)
    decreases |cs|
  {
    if cs != [] {
      var next := LoadCollectionMethods(index, cs[0], workspace, disk, now);
      LoadCollectionMethodsDates(index, cs[0], workspace, disk, now);
      LoadCollectionsDates(next, cs[1..], workspace, disk, now);
      assert LoadCollections(index, cs, workspace, disk, now) == LoadCollections(next, cs[1..], workspace, disk, now);
    }
  }

  lemma ConfiguredNamesCons(cs: seq<Collection>)
    requires cs != []
    ensures ConfiguredNames(cs) == {cs[0].name} + ConfiguredNames(cs[1..])
  {
    assert forall i :: 1 <= i < |cs| ==> cs[i] == cs[1..][i - 1];
    assert forall i :: 0 <= i < |cs[1..]| ==> cs[1..][i] == cs[i + 1];
  }

  /** `createTestFiles`: one summary per file in order, named after the class of
      the file's first method (or `Unknown`), counting the file's methods. */
  function CreateTestFiles(files: seq<string>, methods: seq<TestMethod>, c: Collection): (r: seq<TestFile>)
    ensures |r| == |files|
    ensures forall i :: 0 <= i < |files| ==>
              r[i].filePath == files[i] && r[i].collection == c && r[i].status == None
              && r[i].totalTests == |MethodsOfFile(methods, files[i])|
              && r[i].passedTests == 0 && r[i].failedTests == 0 && r[i].errorTests == 0
              && r[i].skippedTests == 0 && r[i].runningTests == 0
    ensures forall i :: 0 <= i < |files| ==>
              ((forall m :: m in methods ==> m.filePath != files[i]) ==> r[i].className == "Unknown")
              && (forall j :: 0 <= j < |methods| && methods[j].filePath == files[i]
                    && (forall j' :: 0 <= j' < j ==> methods[j'].filePath != files[i])
                    ==> r[i].className == methods[j].className)
  {
    seq(|files|, i requires 0 <= i < |files| => FileOf(files[i], methods, c))
  }

  function FileOf(path: string, methods: seq<TestMethod>, c: Collection): (r: TestFile)
    ensures (forall m :: m in methods ==> m.filePath != path) ==> r.className == "Unknown"
    ensures forall j :: 0 <= j < |methods| && methods[j].filePath == path
              && (forall j' :: 0 <= j' < j ==> methods[j'].filePath != path)
              ==> r.className == methods[j].className
  {
    var fm := MethodsOfFile(methods, path);
    FirstOfFile(methods, path);
    TestFile(path, if |fm| > 0 then fm[0].className else "Unknown", c, None, |fm|, 0, 0, 0, 0, 0)
  }

  /** The first method `filter` keeps is the first method of the file. */
  lemma {:induction false} FirstOfFile(methods: seq<TestMethod>, path: string)
    ensures forall j :: 0 <= j < |methods| && methods[j].filePath == path
              && (forall j' :: 0 <= j' < j ==> methods[j'].filePath != path)
              ==> MethodsOfFile(methods, path) != [] && MethodsOfFile(methods, path)[0] == methods[j]
  {
    if methods != [] && methods[0].filePath != path {
      FirstOfFile(methods[1..], path);
      forall j | 0 < j < |methods| && methods[j].filePath == path
                 && (forall j' :: 0 <= j' < j ==> methods[j'].filePath != path)
        ensures MethodsOfFile(methods, path) != [] && MethodsOfFile(methods, path)[0] == methods[j]
      {
        assert methods[1..][j - 1] == methods[j];
        assert forall j' :: 0 <= j' < j - 1 ==> methods[1..][j'] == methods[j' + 1];
      }
    }
  }

  // ------------------------------------------------------------ grouping

  /** `getFileMethods`: the cached methods of one file, in cached order. */
  function GetFileMethods(index: Index, collectionName: string, filePath: string): (r: seq<TestMethod>)
    ensures collectionName !in index ==> r == []
    ensures collectionName in index ==>
              forall m :: m in r <==> m in index[collectionName].methods && m.filePath == filePath
  {
    if collectionName in index then MethodsOfFile(index[collectionName].methods, filePath) else []
  }

  /** Filtering by file keeps cached order: it distributes over concatenation. */
  lemma MethodsOfFileAppend(a: seq<TestMethod>, b: seq<TestMethod>, path: string)
    ensures MethodsOfFile(a + b, path) == MethodsOfFile(a, path) + MethodsOfFile(b, path)
  {
    FilterAppend(OnFile(path), a, b);
  }

  /** The distinct file paths of the methods, in order of first appearance:
      the groups `getCollectionFiles` builds before sorting them by name. */
  function FilePaths(methods: seq<TestMethod>): (r: seq<string>)
    ensures forall i, j :: 0 <= i < j < |r| ==> r[i] != r[j]
    ensures forall p :: p in r <==> exists m :: m in methods && m.filePath == p
  {
    if methods == [] then []
    else
      var init := methods[..|methods| - 1];
      var last := methods[|methods| - 1];
      var r := FilePaths(init);
      assert forall m :: m in methods <==> m in init || m == last;
      if last.filePath in r then r else r + [last.filePath]
  }

  /** `getCollectionFiles`: one group per distinct file of a cached collection. */
  function CollectionFiles(index: Index, collectionName: string): (r: seq<string>)
    ensures collectionName !in index ==> r == []
    ensures collectionName in index ==>
              (forall i, j :: 0 <= i < j < |r| ==> r[i] != r[j])
              && forall p :: p in r <==> exists m :: m in index[collectionName].methods && m.filePath == p
  {
    if collectionName in index then FilePaths(index[collectionName].methods) else []
  }

  // ------------------------------------------------------- status updates

  /** `updateTestStatus`: the first method of the collection with the given class
      and name gets the status, the time and the message (an absent message
      clears the old one); nothing else changes, and a miss changes nothing. */
  function UpdateTestStatus(index: Index, collectionName: string, className: string, methodName: string,
                            status: TestStatus, errorMessage: Option<string>, now: Millis): (r: Index)
    ensures collectionName !in index ==> r == index
    ensures (collectionName in index
             && forall m :: m in index[collectionName].methods ==> !(m.className == className && m.name == methodName))
            ==> r == index
    ensures r.Keys == index.Keys
    ensures forall k :: k in index && k != collectionName ==> r[k] == index[k]
    ensures collectionName in index ==>
              var before := index[collectionName];
              var k := FindMethod(before.methods, className, methodName);
              r[collectionName] == before.(methods := r[collectionName].methods)
              && |r[collectionName].methods| == |before.methods|
              && (forall j :: 0 <= j < |before.methods| && j != k ==> r[collectionName].methods[j] == before.methods[j])
              && (k >= 0 ==> r[collectionName].methods[k]
                               == before.methods[k].(status := Some(status), lastRun := Some(now), errorMessage := errorMessage))
  {
    if collectionName !in index then index
    else
      var cached := index[collectionName];
      var k := FindMethod(cached.methods, className, methodName);
      if k == -1 then index
      else
        var m := cached.methods[k];
        index[collectionName := cached.(methods := cached.methods[k := m.(status := Some(status), lastRun := Some(now), errorMessage := errorMessage)])]
  }

  /** `setTestRunning`: the found method is marked `Unknown` (not `Running`);
      nothing else changes. */
  function SetTestRunning(index: Index, collectionName: string, className: string, methodName: string): (r: Index)
    ensures r.Keys == index.Keys
    ensures forall k :: k in index && k != collectionName ==> r[k] == index[k]
    ensures collectionName in index ==>
              var before := index[collectionName];
              var k := FindMethod(before.methods, className, methodName);
              r[collectionName] == before.(methods := r[collectionName].methods)
              && |r[collectionName].methods| == |before.methods|
              && (forall j :: 0 <= j < |before.methods| && j != k ==> r[collectionName].methods[j] == before.methods[j])
              && (k >= 0 ==> r[collectionName].methods[k] == before.methods[k].(status := Some(Unknown)))
  {
    if collectionName !in index then index
    else
      var cached := index[collectionName];
      var k := FindMethod(cached.methods, className, methodName);
      if k == -1 then index
      else index[collectionName := cached.(methods := cached.methods[k := cached.methods[k].(status := Some(Unknown))])]
  }

  /** The callback of `runSingleTest` and `runTestFile`: the update a run reports
      goes to `updateTestStatus`, with a missing status read as `Unknown`. */
  function ApplyUpdate(index: Index, e: TestMethod, now: Millis): (r: Index)
    ensures r.Keys == index.Keys
    ensures e.status.None? ==>
              r == UpdateTestStatus(index, e.collection.name, e.className, e.name, Unknown, e.errorMessage, now)
    ensures e.status.Some? ==>
              r == UpdateTestStatus(index, e.collection.name, e.className, e.name, e.status.value, e.errorMessage, now)
  {
    UpdateTestStatus(index, e.collection.name, e.className, e.name, e.status.GetOr(Unknown), e.errorMessage, now)
  }

  /** After both updates of a single-method run, the method in the index holds
      the classified status and the whole output as its message. */
  lemma MethodRunSettles(index: Index, m: TestMethod, o: Outcome, startedAt: Millis, finishedAt: Millis, t0: Millis, t1: Millis)
    requires m.collection.name in index
    requires FindMethod(index[m.collection.name].methods, m.className, m.name) >= 0
    ensures var events := MethodRunEvents(m, true, o, startedAt, finishedAt);
            var r := ApplyUpdate(ApplyUpdate(index, events[0], t0), events[1], t1);
            var k := FindMethod(index[m.collection.name].methods, m.className, m.name);
            m.collection.name in r && k < |r[m.collection.name].methods|
            && r[m.collection.name].methods[k].status == Some(Classify(o))
            && r[m.collection.name].methods[k].errorMessage == Some(o.output)
            && r[m.collection.name].methods[k].lastRun == Some(t1)
  {
    var events := MethodRunEvents(m, true, o, startedAt, finishedAt);
    var name := m.collection.name;
    var k := FindMethod(index[name].methods, m.className, m.name);
    var mid := ApplyUpdate(index, events[0], t0);
    assert mid[name].methods[k].className == m.className && mid[name].methods[k].name == m.name;
    FindMethodUnchanged(index[name].methods, mid[name].methods, m.className, m.name, k);
  }

  /** Changing fields other than the class and name at the found index keeps it the found index. */
  lemma FindMethodUnchanged(before: seq<TestMethod>, after: seq<TestMethod>, className: string, name: string, k: int)
    requires k == FindMethod(before, className, name) && k >= 0
    requires |after| == |before|
    requires forall j :: 0 <= j < |before| && j != k ==> after[j] == before[j]
    requires after[k].className == className && after[k].name == name
    ensures FindMethod(after, className, name) == k
  {
  }
}

=== FILE: glob.dfy ===
/** The file-pattern test of src/testExplorer.ts (`matchesPattern`): a glob is
    rewritten into a regular expression by three replacements in sequence, and
    the expression is searched for, unanchored, in a bare file name.

    The rewrite only ever produces `.` and `[^/]*`; every other character of
    the glob is kept and read here as a literal (see the README for the
    regular-expression metacharacters this leaves out). */
module Glob {
  import opened Strings
  import opened Seqs

  /** The pattern used when a collection configures none. */
  const DefaultPattern: string := "**/*Test.php"

  /** The regular expressions the rewrite produces, one token at a time. */
  datatype Token = Lit(c: char) | AnyChar | NonSlashRun

  // ------------------------------------------------------ the string rewrite

  /** `.replace(/\*\*\/g, '.*')`: non-overlapping, left to right. */
  function ReplaceDoubleStar(p: string): string {
    if |p| >= 2 && p[0] == '*' && p[1] == '*' then ".*" + ReplaceDoubleStar(p[2..])
    else if p == [] then []
    else [p[0]] + ReplaceDoubleStar(p[1..])
  }

  /** `.replace(/\*\/g, '[^/]*')`: every star, including those the first step produced. */
  function ReplaceStar(p: string): string {
    FlatMap(StarOf, p)
  }

  function StarOf(c: char): string {
    if c == '*' then "[^/]*" else [c]
  }

  /** `.replace(/\?/g, '.')`. */
  function ReplaceQuestion(p: string): string {
    FlatMap(QuestionOf, p)
  }

  function QuestionOf(c: char): string {
    if c == '?' then "." else [c]
  }

  /** The source text of the regular expression built from a glob. */
  function RegexSource(pattern: string): string {
    ReplaceQuestion(ReplaceStar(ReplaceDoubleStar(pattern)))
  }

  // ------------------------------------------------------- the token reading

  /** A glob read as tokens: `**` is `.` followed by `[^/]*` (the star the first
      replacement leaves is rewritten by the second), `*` is `[^/]*`, and `?` and
      `.` are both the any-character `.`. */
  function Translate(pattern: string): seq<Token> {
    if |pattern| >= 2 && pattern[0] == '*' && pattern[1] == '*' then [AnyChar, NonSlashRun] + Translate(pattern[2..])
    else if pattern == [] then []
    else [TokenOf(pattern[0])] + Translate(pattern[1..])
  }

  function TokenOf(c: char): Token {
    if c == '*' then NonSlashRun else if c == '?' || c == '.' then AnyChar else Lit(c)
  }

  /** The regular-expression text of one token. */
  function RenderToken(t: Token): string {
    match t
    case Lit(c) => [c]
    case AnyChar => "."
    case NonSlashRun => "[^/]*"
  }

  /** The regular-expression text of a token sequence. */
  function Render(ts: seq<Token>): string {
    FlatMap(RenderToken, ts)
  }

  lemma {:induction false} ReplaceQuestionNoQuestion(s: string)
    requires '?' !in s
    ensures ReplaceQuestion(s) == s
  {
    if s != [] {
      ReplaceQuestionNoQuestion(s[1..]);
      assert s == [s[0]] + s[1..];
    }
  }

  /** What the second and third replacements make of one character left by the first. */
  lemma LaterReplacementsOfChar(c: char)
    ensures ReplaceQuestion(ReplaceStar([c])) == RenderToken(TokenOf(c))
  {
    FlatMapSingle(StarOf, c);
    if c == '*' {
      assert ReplaceStar([c]) == "[^/]*";
      assert '?' !in "[^/]*";
      ReplaceQuestionNoQuestion("[^/]*");
    } else {
      FlatMapSingle(QuestionOf, c);
    }
  }

  /** What the second and third replacements make of the `.*` the first writes for `**`. */
  lemma LaterReplacementsOfDoubleStar()
    ensures ReplaceQuestion(ReplaceStar(".*")) == ".[^/]*"
  {
    FlatMapAppend(StarOf, ".", "*");
    LaterReplacementsOfChar('.');
    LaterReplacementsOfChar('*');
    FlatMapAppend(QuestionOf, ReplaceStar("."), ReplaceStar("*"));
  }

  /** The second and third replacements work character by character. */
  lemma LaterReplacementsAppend(a: string, b: string)
    ensures ReplaceQuestion(ReplaceStar(a + b)) == ReplaceQuestion(ReplaceStar(a)) + ReplaceQuestion(ReplaceStar(b))
  {
    FlatMapAppend(StarOf, a, b);
    FlatMapAppend(QuestionOf, ReplaceStar(a), ReplaceStar(b));
  }

  lemma RenderCons(t: Token, ts: seq<Token>)
    ensures Render([t] + ts) == RenderToken(t) + Render(ts)
  {
    assert ([t] + ts)[1..] == ts;
  }

  /** The replacements turn a leading `**` into `.[^/]*`. */
  lemma DoubleStarRewrite(pattern: string)
    requires |pattern| >= 2 && pattern[0] == '*' && pattern[1] == '*'
    ensures RegexSource(pattern) == ".[^/]*" + RegexSource(pattern[2..])
  {
    assert ReplaceDoubleStar(pattern) == ".*" + ReplaceDoubleStar(pattern[2..]);
    LaterReplacementsAppend(".*", ReplaceDoubleStar(pattern[2..]));
    LaterReplacementsOfDoubleStar();
  }

  /** The token reading renders a leading `**` as `.[^/]*`. */
  lemma DoubleStarRender(pattern: string)
    requires |pattern| >= 2 && pattern[0] == '*' && pattern[1] == '*'
    ensures Render(Translate(pattern)) == ".[^/]*" + Render(Translate(pattern[2..]))
  {
    var ts := Translate(pattern[2..]);
    assert Translate(pattern) == [AnyChar, NonSlashRun] + ts;
    FlatMapAppend(RenderToken, [AnyChar, NonSlashRun], ts);
    assert Render([AnyChar, NonSlashRun]) == ".[^/]*";
  }

  /** The three replacements produce exactly the rendering of the token reading. */
  lemma {:induction false} RegexSourceIsRendering(pattern: string)
    ensures RegexSource(pattern) == Render(Translate(pattern))
  {
    if pattern == [] {
    } else if |pattern| >= 2 && pattern[0] == '*' && pattern[1] == '*' {
      RegexSourceIsRendering(pattern[2..]);
      DoubleStarRewrite(pattern);
      DoubleStarRender(pattern);
    } else {
      var rest := pattern[1..];
      assert ReplaceDoubleStar(pattern) == [pattern[0]] + ReplaceDoubleStar(rest);
      LaterReplacementsAppend([pattern[0]], ReplaceDoubleStar(rest));
      LaterReplacementsOfChar(pattern[0]);
      RegexSourceIsRendering(rest);
      assert Translate(pattern) == [TokenOf(pattern[0])] + Translate(rest);
      RenderCons(TokenOf(pattern[0]), Translate(rest));
    }
  }

  /** A slash in the glob survives as a literal slash token. */
  lemma {:induction false} TranslateKeepsSlash(pattern: string)
    requires '/' in pattern
    ensures Lit('/') in Translate(pattern)
  {
    if |pattern| >= 2 && pattern[0] == '*' && pattern[1] == '*' {
      assert '/' in pattern[2..];
      TranslateKeepsSlash(pattern[2..]);
    } else if pattern[0] == '/' {
      assert Translate(pattern)[0] == Lit('/');
    } else {
      assert '/' in pattern[1..];
      TranslateKeepsSlash(pattern[1..]);
    }
  }

  // -------------------------------------------------------- the token meaning

  predicate NoSlash(w: string) {
    forall k :: 0 <= k < |w| ==> w[k] != '/'
  }

  lemma NoSlashCons(c: char, w: string)
    requires c != '/' && NoSlash(w)
    ensures NoSlash([c] + w)
  {
    assert forall k :: 1 <= k < |[c] + w| ==> ([c] + w)[k] == w[k - 1];
  }

  /** The language of a token sequence: the words the whole expression matches. */
  ghost predicate InLanguage(ts: seq<Token>, w: string)
    decreases |ts|
  {
    if ts == [] then w == []
    else match ts[0]
      case Lit(c) => |w| > 0 && w[0] == c && InLanguage(ts[1..], w[1..])
      case AnyChar => |w| > 0 && !IsLineTerminator(w[0]) && InLanguage(ts[1..], w[1..])
      case NonSlashRun => exists j: nat | j <= |w| :: NoSlash(w[..j]) && InLanguage(ts[1..], w[j..])
  }

  /** The backtracking matcher: does the expression match a prefix of `s`? */
  function MatchHere(ts: seq<Token>, s: string): bool
    decreases |s|, |ts|
  {
    if ts == [] then true
    else match ts[0]
      case Lit(c) => |s| > 0 && s[0] == c && MatchHere(ts[1..], s[1..])
      case AnyChar => |s| > 0 && !IsLineTerminator(s[0]) && MatchHere(ts[1..], s[1..])
      case NonSlashRun => MatchHere(ts[1..], s) || (|s| > 0 && s[0] != '/' && MatchHere(ts, s[1..]))
  }

  /** `regex.test(s)`: a match starting anywhere in `s`. */
  function Search(ts: seq<Token>, s: string): bool {
    MatchHere(ts, s) || (|s| > 0 && Search(ts, s[1..]))
  }

  /** `matchesPattern(filename, pattern)`. */
  function MatchesPattern(filename: string, pattern: string): (r: bool)
    ensures r <==> exists i: nat, k: nat | i <= k <= |filename| :: InLanguage(Translate(pattern), filename[i..k])
  {
    SearchIff(Translate(pattern), filename);
    Search(Translate(pattern), filename)
  }

  /** The matcher succeeds exactly when some prefix of `s` is in the language. */
  lemma {:induction false} MatchHereSound(ts: seq<Token>, s: string)
    requires MatchHere(ts, s)
    ensures exists k: nat | k <= |s| :: InLanguage(ts, s[..k])
    decreases |s|, |ts|
  {
    if ts == [] {
      assert InLanguage(ts, s[..0]);
    } else {
      match ts[0]
      case Lit(c) =>
        MatchHereSound(ts[1..], s[1..]);
        var k: nat :| k <= |s[1..]| && InLanguage(ts[1..], s[1..][..k]);
        assert s[..k + 1][1..] == s[1..][..k];
        assert InLanguage(ts, s[..k + 1]);
      case AnyChar =>
        MatchHereSound(ts[1..], s[1..]);
        var k: nat :| k <= |s[1..]| && InLanguage(ts[1..], s[1..][..k]);
        assert s[..k + 1][1..] == s[1..][..k];
        assert InLanguage(ts, s[..k + 1]);
      case NonSlashRun =>
        if MatchHere(ts[1..], s) {
          MatchHereSound(ts[1..], s);
          var k: nat :| k <= |s| && InLanguage(ts[1..], s[..k]);
          assert s[..k][..0] == [] && s[..k][0..] == s[..k];
          assert InLanguage(ts, s[..k]);
        } else {
          MatchHereSound(ts, s[1..]);
          var k: nat :| k <= |s[1..]| && InLanguage(ts, s[1..][..k]);
          var w := s[1..][..k];
          var j: nat :| j <= |w| && NoSlash(w[..j]) && InLanguage(ts[1..], w[j..]);
          RunExtend(ts, s[0], w, j);
          assert s[..k + 1] == [s[0]] + w;
        }
    }
  }

  lemma {:induction false} MatchHereComplete(ts: seq<Token>, s: string, k: nat)
    requires k <= |s| && InLanguage(ts, s[..k])
    ensures MatchHere(ts, s)
    decreases |s|, |ts|
  {
    if ts != [] {
      var w := s[..k];
      match ts[0]
      case Lit(c) =>
        assert w[1..] == s[1..][..k - 1];
        MatchHereComplete(ts[1..], s[1..], k - 1);
      case AnyChar =>
        assert w[1..] == s[1..][..k - 1];
        MatchHereComplete(ts[1..], s[1..], k - 1);
      case NonSlashRun =>
        var j: nat :| j <= |w| && NoSlash(w[..j]) && InLanguage(ts[1..], w[j..]);
        if j == 0 {
          assert w[0..] == s[..k];
          MatchHereComplete(ts[1..], s, k);
        } else {
          RunShift(ts, w, j);
          assert w[1..] == s[1..][..k - 1];
          MatchHereComplete(ts, s[1..], k - 1);
        }
    }
  }

  /** A leading `[^/]*` can take one more character other than a slash. */
  lemma RunExtend(ts: seq<Token>, c: char, w: string, j: nat)
    requires ts != [] && ts[0] == NonSlashRun && c != '/'
    requires j <= |w| && NoSlash(w[..j]) && InLanguage(ts[1..], w[j..])
    ensures InLanguage(ts, [c] + w)
  {
    var w' := [c] + w;
    assert w'[..j + 1] == [c] + w[..j];
    assert w'[j + 1..] == w[j..];
    NoSlashCons(c, w[..j]);
  }

  /** A word a leading `[^/]*` starts to consume keeps its language after its first character. */
  lemma RunShift(ts: seq<Token>, w: string, j: nat)
    requires ts != [] && ts[0] == NonSlashRun
    requires 0 < j <= |w| && NoSlash(w[..j]) && InLanguage(ts[1..], w[j..])
    ensures w[0] != '/' && InLanguage(ts, w[1..])
  {
    assert w[0] == w[..j][0];
    assert w[1..][..j - 1] == w[..j][1..];
    assert w[1..][j - 1..] == w[j..];
    assert NoSlash(w[1..][..j - 1]);
  }

  /** `regex.test(s)` holds exactly when some substring of `s` is in the language. */
  lemma SearchIff(ts: seq<Token>, s: string)
    ensures Search(ts, s) <==> exists i: nat, k: nat | i <= k <= |s| :: InLanguage(ts, s[i..k])
  {
    if Search(ts, s) {
      var i: nat, k: nat := SearchSound(ts, s);
    }
    if exists i: nat, k: nat | i <= k <= |s| :: InLanguage(ts, s[i..k]) {
      var i: nat, k: nat :| i <= k <= |s| && InLanguage(ts, s[i..k]);
      SearchComplete(ts, s, i, k);
    }
  }

  /** A successful search names the substring it matched. */
  lemma {:induction false} SearchSound(ts: seq<Token>, s: string) returns (i: nat, k: nat)
    requires Search(ts, s)
    ensures i <= k <= |s| && InLanguage(ts, s[i..k])
  {
    if MatchHere(ts, s) {
      MatchHereSound(ts, s);
      k :| k <= |s| && InLanguage(ts, s[..k]);
      i := 0;
      assert s[0..k] == s[..k];
    } else {
      var i', k' := SearchSound(ts, s[1..]);
      i, k := i' + 1, k' + 1;
      assert |s[i..k]| == |s[1..][i'..k']|;
      assert forall m :: 0 <= m < k - i ==> s[i..k][m] == s[1..][i'..k'][m];
      assert s[i..k] == s[1..][i'..k'];
    }
  }

  /** A substring in the language makes the search succeed. */
  lemma {:induction false} SearchComplete(ts: seq<Token>, s: string, i: nat, k: nat)
    requires i <= k <= |s| && InLanguage(ts, s[i..k])
    ensures Search(ts, s)
    decreases i
  {
    if i == 0 {
      assert s[..k] == s[i..k];
      MatchHereComplete(ts, s, k);
    } else {
      assert s[1..][i - 1..k - 1] == s[i..k];
      SearchComplete(ts, s[1..], i - 1, k - 1);
    }
  }

  /** Every word of an expression that contains a literal slash contains a slash. */
  lemma {:induction false} LiteralSlashNeedsSlash(ts: seq<Token>, w: string)
    requires Lit('/') in ts && InLanguage(ts, w)
    ensures '/' in w
    decreases |ts|
  {
    if ts[0] == Lit('/') {
      assert w[0] == '/';
    } else {
      assert Lit('/') in ts[1..];
      match ts[0]
      case Lit(c) =>
        LiteralSlashNeedsSlash(ts[1..], w[1..]);
        assert w == [w[0]] + w[1..];
      case AnyChar =>
        LiteralSlashNeedsSlash(ts[1..], w[1..]);
        assert w == [w[0]] + w[1..];
      case NonSlashRun =>
        var j: nat :| j <= |w| && NoSlash(w[..j]) && InLanguage(ts[1..], w[j..]);
        LiteralSlashNeedsSlash(ts[1..], w[j..]);
        assert w == w[..j] + w[j..];
    }
  }

  /** Because the default pattern demands a slash and a bare file name has
      none, the default pattern matches no file name at all. */
  lemma DefaultPatternMatchesNoFileName(filename: string)
    requires '/' !in filename
    ensures !MatchesPattern(filename, DefaultPattern)
  {
    var ts := Translate(DefaultPattern);
    assert DefaultPattern[2] == '/';
    TranslateKeepsSlash(DefaultPattern);
    SearchIff(ts, filename);
    if MatchesPattern(filename, DefaultPattern) {
      var i: nat, k: nat :| i <= k <= |filename| && InLanguage(ts, filename[i..k]);
      LiteralSlashNeedsSlash(ts, filename[i..k]);
      assert false;
    }
  }

  /** A glob without stars or line breaks is in its own language. */
  lemma {:induction false} StarFreeGlobMatchesItself(t: string)
    requires '*' !in t
    requires forall k :: 0 <= k < |t| ==> !IsLineTerminator(t[k])
    ensures InLanguage(Translate(t), t)
  {
    if t != [] {
      assert Translate(t) == [TokenOf(t[0])] + Translate(t[1..]);
      assert ([TokenOf(t[0])] + Translate(t[1..]))[1..] == Translate(t[1..]);
      StarFreeGlobMatchesItself(t[1..]);
    }
  }

  /** `*` followed by a star-free suffix matches every slash-free name ending in
      that suffix: `*Test.php` matches `UserTest.php`. */
  lemma StarSuffixMatches(t: string, filename: string)
    requires '*' !in t
    requires forall k :: 0 <= k < |t| ==> !IsLineTerminator(t[k])
    requires '/' !in filename && EndsWith(filename, t)
    ensures MatchesPattern(filename, "*" + t)
  {
    var p := "*" + t;
    assert p[1..] == t;
    assert !(|p| >= 2 && p[1] == '*');
    var ts := Translate(p);
    assert ts == [NonSlashRun] + Translate(t);
    assert ts[1..] == Translate(t);
    StarFreeGlobMatchesItself(t);
    var j := |filename| - |t|;
    assert filename[0..|filename|] == filename;
    assert NoSlash(filename[..j]);
    assert filename[j..] == t;
    assert InLanguage(ts, filename[0..|filename|]);
    SearchIff(ts, filename);
  }
}

=== FILE: options.dfy ===
/** The optional values of the extension: a TypeScript `T | undefined`. */
module Options {

  datatype Option<+T> = None | Some(value: T) {

    /** `x || fallback` on an optional value whose present values are all truthy. */
    function GetOr(default: T): T {
      match this
      case Some(v) => v
      case None => default
    }
  }
}

=== FILE: parser.dfy ===
/** The PHP test-method extractor of src/services/TestParser.ts.

    The three regular expressions of the extractor are modelled as what a
    backtracking matcher does with them: a global `exec` loop finds the
    leftmost match at or after `lastIndex` and resumes just past it; at one
    start position the alternatives are tried in priority order (an optional
    group first with, then without, its content), a lazy `[\s\S]*?` takes the
    shortest extension that lets the rest match, and each greedy `\s+`, `\w+`
    or `[^)]*` is followed by something it cannot also match, so it never
    needs to give characters back. */
module Parser {
  import opened Options
  import opened Strings
  import opened Seqs
  import opened Types

  /** One match: the captured method name and the index just past the match. */
  datatype Match = Match(name: string, end: nat)

  predicate IsTestName(n: string) {
    |n| > 4 && n[..4] == "test" && forall k :: 0 <= k < |n| ==> IsWordChar(n[k])
  }

  predicate IsIdentifier(n: string) {
    |n| > 0 && forall k :: 0 <= k < |n| ==> IsWordChar(n[k])
  }

  // ---------------------------------------------------------------- exec loop

  /** Every match at an index below `n` ends after that index and no later than `n`. */
  ghost predicate Advances(at: nat -> Option<Match>, n: nat) {
    forall i: nat :: i < n && at(i).Some? ==> i < at(i).value.end <= n
  }

  /** The global `exec` loop of a pattern whose match at index `i` is `at(i)`,
      over a text of length `n`, resumed at `lastIndex == pos`: the leftmost
      match is taken and the loop resumes where that match ends. */
  function ExecLoop(at: nat -> Option<Match>, n: nat, pos: nat): (r: seq<string>)
    requires pos <= n && Advances(at, n)
    ensures forall x :: x in r ==> exists p: nat :: pos <= p < n && at(p).Some? && at(p).value.name == x
    decreases n - pos
  {
    if pos == n then []
    else if at(pos).None? then ExecLoop(at, n, pos + 1)
    else [at(pos).value.name] + ExecLoop(at, n, at(pos).value.end)
  }

  /** Where each match of the loop starts, one per name found. */
  function ExecStarts(at: nat -> Option<Match>, n: nat, pos: nat): (ps: seq<nat>)
    requires pos <= n && Advances(at, n)
    ensures |ps| == |ExecLoop(at, n, pos)|
    ensures forall k :: 0 <= k < |ps| ==>
              pos <= ps[k] < n && at(ps[k]).Some? && at(ps[k]).value.name == ExecLoop(at, n, pos)[k]
    decreases n - pos
  {
    if pos == n then []
    else if at(pos).None? then ExecStarts(at, n, pos + 1)
    else [pos] + ExecStarts(at, n, at(pos).value.end)
  }

  ghost predicate NoMatch(at: nat -> Option<Match>, a: nat, b: nat) {
    forall p: nat :: a <= p < b ==> at(p).None?
  }

  /** Each start lies at or after the end of every earlier match. */
  ghost predicate Disjoint(at: nat -> Option<Match>, ps: seq<nat>) {
    forall j, k :: 0 <= j < k < |ps| ==> at(ps[j]).Some? && at(ps[j]).value.end <= ps[k]
  }

  /** `ps` are the starts of successive leftmost matches: each is the first match
      at or after the end of the previous one (or `from`), and none follows the last. */
  ghost predicate LeftmostRun(at: nat -> Option<Match>, from: nat, ps: seq<nat>, n: nat)
    decreases |ps|
  {
    if ps == [] then NoMatch(at, from, n)
    else from <= ps[0] && at(ps[0]).Some? && NoMatch(at, from, ps[0])
         && LeftmostRun(at, at(ps[0]).value.end, ps[1..], n)
  }

  lemma DisjointCons(at: nat -> Option<Match>, p: nat, rest: seq<nat>)
    requires at(p).Some? && Disjoint(at, rest)
    requires forall k :: 0 <= k < |rest| ==> at(p).value.end <= rest[k]
    ensures Disjoint(at, [p] + rest)
  {
    assert forall k :: 1 <= k < |rest| + 1 ==> ([p] + rest)[k] == rest[k - 1];
  }

  lemma NoMatchExtend(at: nat -> Option<Match>, a: nat, b: nat)
    requires at(a).None? && NoMatch(at, a + 1, b)
    ensures NoMatch(at, a, b)
  {
  }

  /** The matches found do not overlap, so their starts strictly increase. */
  lemma {:induction false} ExecStartsIncrease(at: nat -> Option<Match>, n: nat, pos: nat)
    requires pos <= n && Advances(at, n)
    ensures Disjoint(at, ExecStarts(at, n, pos))
    decreases n - pos
  {
    if pos < n {
      if at(pos).None? {
        ExecStartsIncrease(at, n, pos + 1);
      } else {
        ExecStartsIncrease(at, n, at(pos).value.end);
        DisjointCons(at, pos, ExecStarts(at, n, at(pos).value.end));
      }
    }
  }

  /** Every match found is the leftmost one where the loop resumed, and after
      the last one there is no match at all. */
  lemma {:induction false} ExecStartsLeftmost(at: nat -> Option<Match>, n: nat, pos: nat)
    requires pos <= n && Advances(at, n)
    ensures LeftmostRun(at, pos, ExecStarts(at, n, pos), n)
    decreases n - pos
  {
    if pos < n {
      if at(pos).None? {
        ExecStartsLeftmost(at, n, pos + 1);
        var ps := ExecStarts(at, n, pos + 1);
        if ps == [] {
          NoMatchExtend(at, pos, n);
        } else {
          NoMatchExtend(at, pos, ps[0]);
        }
      } else {
        ExecStartsLeftmost(at, n, at(pos).value.end);
      }
    }
  }

  /** A match at `q` is found unless an earlier match found runs past `q`. */
  lemma {:induction false} ExecLoopComplete(at: nat -> Option<Match>, n: nat, pos: nat, q: nat)
    requires pos <= q < n && Advances(at, n) && at(q).Some?
    ensures at(q).value.name in ExecLoop(at, n, pos)
            || exists p: nat :: pos <= p < q && at(p).Some? && q < at(p).value.end
    decreases q - pos
  {
    if pos < q {
      if at(pos).None? {
        ExecLoopComplete(at, n, pos + 1, q);
      } else if at(pos).value.end <= q {
        ExecLoopComplete(at, n, at(pos).value.end, q);
      }
    }
  }

  /** A match at or after `pos` makes the loop find something. */
  lemma {:induction false} ExecLoopNonEmpty(at: nat -> Option<Match>, n: nat, pos: nat, q: nat)
    requires pos <= q < n && Advances(at, n) && at(q).Some?
    ensures ExecLoop(at, n, pos) != []
    decreases q - pos
  {
    if pos < q && at(pos).None? {
      ExecLoopNonEmpty(at, n, pos + 1, q);
    }
  }

  /** A lazy `[\s\S]*?` followed by a pattern whose match at index `k` is `f(k)`,
      over a text of length `n`: the shortest extension, that is the first match
      at or after `k`. */
  function LazyMatch(f: nat -> Option<Match>, n: nat, k: nat): (r: Option<Match>)
    requires k <= n
    ensures r.Some? ==> exists q: nat | k <= q <= n :: f(q) == r
    decreases n - k
  {
    if f(k).Some? then f(k)
    else if k == n then None
    else LazyMatch(f, n, k + 1)
  }

  /** The lazy extension stops at the first match. */
  lemma {:induction false} LazyMatchLeftmost(f: nat -> Option<Match>, n: nat, k: nat, q: nat)
    requires k <= q <= n && f(q).Some? && NoMatch(f, k, q)
    ensures LazyMatch(f, n, k) == f(q)
    decreases q - k
  {
    if k < q {
      LazyMatchLeftmost(f, n, k + 1, q);
    }
  }

  /** A match at or after `k` makes the lazy extension succeed. */
  lemma {:induction false} LazyMatchFound(f: nat -> Option<Match>, n: nat, k: nat, q: nat)
    requires k <= q <= n && f(q).Some?
    ensures LazyMatch(f, n, k).Some?
    decreases q - k
  {
    if k < q && f(k).None? {
      LazyMatchFound(f, n, k + 1, q);
    }
  }

  // ---------------------------------------------------------------- class name

  /** `class\s+(\w+)` matched at index `i`: the captured identifier. */
  function ClassAt(s: string, i: nat): (r: Option<string>)
    ensures r.Some? ==> IsIdentifier(r.value)
  {
    if !OccursAt(s, "class", i) then None
    else
      var j := Span(s, i + 5, IsSpace);
      var k := Span(s, j, IsWordChar);
      if j == i + 5 || k == j then None else Some(s[j..k])
  }

  /** Where the leftmost match of `class\s+(\w+)` at or after `i` starts, or -1. */
  function FirstClassIndex(s: string, i: nat): (j: int)
    requires i <= |s|
    ensures j == -1 || (i <= j <= |s| && ClassAt(s, j).Some?)
    ensures forall j': nat | i <= j' <= |s| && (j == -1 || j' < j) :: ClassAt(s, j').None?
    decreases |s| - i
  {
    if ClassAt(s, i).Some? then i
    else if i == |s| then -1
    else FirstClassIndex(s, i + 1)
  }

  /** The leftmost match of `class\s+(\w+)` starting at or after `i`. */
  function FirstClassFrom(s: string, i: nat): (r: Option<string>)
    requires i <= |s|
    ensures r.None? <==> forall j: nat | i <= j <= |s| :: ClassAt(s, j).None?
    ensures r.Some? ==> exists j: nat | i <= j <= |s| ::
              ClassAt(s, j) == r && forall j': nat | i <= j' < j :: ClassAt(s, j').None?
  {
    var j := FirstClassIndex(s, i);
    if j == -1 then None else ClassAt(s, j)
  }

  /** `extractClassName`: the identifier of the leftmost `class <name>` in the
      text, or nothing when the text has no class declaration. */
  function ExtractClassName(content: string): (r: Option<string>)
    ensures r.None? <==> !HasClassDeclaration(content)
    ensures r.Some? ==> exists i: nat | i <= |content| ::
              ClassAt(content, i) == r && forall j: nat | j < i :: ClassAt(content, j).None?
  {
    FirstClassFrom(content, 0)
  }

  // ------------------------------------------------------- convention methods

  /** `\s*\([^)]*\)` at index `p`, closing a declaration whose name was `name`. */
  function ParametersAt(s: string, p: nat, name: string): (r: Option<Match>)
    requires p <= |s|
    ensures r.Some? ==> p < r.value.end <= |s| && r.value.name == name
  {
    var q := Span(s, p, IsSpace);
    if q < |s| && s[q] == '(' then
      var close := IndexOf(s, q + 1, ')');
      if close == -1 then None else Some(Match(name, close + 1))
    else None
  }

  /** `function\s+(test\w+)\s*\([^)]*\)` at index `p`. */
  function TestFunctionAt(s: string, p: nat): (r: Option<Match>)
    ensures r.Some? ==> p < r.value.end <= |s| && IsTestName(r.value.name)
  {
    if !OccursAt(s, "function", p) then None
    else
      var a := Span(s, p + 8, IsSpace);
      if a == p + 8 || !OccursAt(s, "test", a) then None
      else
        var b := Span(s, a + 4, IsWordChar);
        if b == a + 4 then None
        else
          TestNameAt(s, a, b);
          ParametersAt(s, b, s[a..b])
  }

  /** `test\w+` read at `a` up to `b` is a test name. */
  lemma TestNameAt(s: string, a: nat, b: nat)
    requires OccursAt(s, "test", a) && a + 4 < b <= |s|
    requires forall k :: a + 4 <= k < b ==> IsWordChar(s[k])
    ensures IsTestName(s[a..b])
  {
    var n := s[a..b];
    assert n[..4] == s[a..a + 4] == "test";
    forall k | 0 <= k < |n|
      ensures IsWordChar(n[k])
    {
      if k < 4 {
        assert n[k] == "test"[k];
      } else {
        assert n[k] == s[a + k];
      }
    }
  }

  /** `(?:public\s+)?function\s+(test\w+)\s*\([^)]*\)` at index `p`. */
  function ConventionDeclAt(s: string, p: nat): (r: Option<Match>)
    ensures r.Some? ==> exists q: nat | p <= q <= |s| :: TestFunctionAt(s, q) == r
  {
    var viaPublic :=
      if OccursAt(s, "public", p) && Span(s, p + 6, IsSpace) > p + 6
      then TestFunctionAt(s, Span(s, p + 6, IsSpace)) else None;
    if viaPublic.Some? then viaPublic else TestFunctionAt(s, p)
  }

  /** The lazy `[\s\S]*?\*\/\s*` of a doc block, searched from index `k`:
      the first closing star-slash after which a test declaration follows. */
  function DocBlockFrom(s: string, k: nat): (r: Option<Match>)
    requires k <= |s|
    ensures r.Some? ==> exists q: nat | k <= q <= |s| :: TestFunctionAt(s, q) == r
    decreases |s| - k
  {
    if k + 2 > |s| then None
    else
      var decl := if OccursAt(s, "*/", k) then ConventionDeclAt(s, Span(s, k + 2, IsSpace)) else None;
      if decl.Some? then decl else DocBlockFrom(s, k + 1)
  }

  /** The convention pattern
      `(?:\/\*\*[\s\S]*?\*\/\s*)?(?:public\s+)?function\s+(test\w+)\s*\([^)]*\)`
      matched at index `i`. */
  function ConventionAt(s: string, i: nat): (r: Option<Match>)
    requires i <= |s|
    ensures r.Some? ==> i < r.value.end <= |s| && IsTestName(r.value.name)
    ensures r.Some? ==> exists q: nat | i <= q <= |s| :: TestFunctionAt(s, q) == r
  {
    var viaDoc := if OccursAt(s, "/**", i) then DocBlockFrom(s, i + 3) else None;
    if viaDoc.Some? then viaDoc else ConventionDeclAt(s, i)
  }

  /** The text holds `function name(...)` for the test name `name`. */
  predicate DeclaresTestFunction(s: string, name: string) {
    exists q: nat | q <= |s| :: TestFunctionAt(s, q).Some? && TestFunctionAt(s, q).value.name == name
  }

  /** The convention pattern's match at each index of `s`. */
  function ConventionMatcher(s: string): nat -> Option<Match> {
    (i: nat) => if i <= |s| then ConventionAt(s, i) else None
  }

  lemma ConventionAdvances(s: string)
    ensures Advances(ConventionMatcher(s), |s|)
  {
  }

  /** `findConventionTestMethods`: every name found starts with `test`, has at
      least one more word character, and is declared as `function name(...)`. */
  function ConventionNames(content: string): (r: seq<string>)
    ensures forall n :: n in r ==> IsTestName(n) && DeclaresTestFunction(content, n)
    ensures (exists n :: DeclaresTestFunction(content, n)) ==> r != []
  {
    ConventionAdvances(content);
    var r := ExecLoop(ConventionMatcher(content), |content|, 0);
    assert (exists n :: DeclaresTestFunction(content, n)) ==> r != [] by {
      if exists n :: DeclaresTestFunction(content, n) {
        var n :| DeclaresTestFunction(content, n);
        ConventionLoopNonEmpty(content, n);
      }
    }
    r
  }

  /** A declared test function makes the convention loop find something. */
  lemma ConventionLoopNonEmpty(content: string, n: string)
    requires DeclaresTestFunction(content, n)
    ensures Advances(ConventionMatcher(content), |content|)
    ensures ExecLoop(ConventionMatcher(content), |content|, 0) != []
  {
    ConventionAdvances(content);
    var q: nat :| q <= |content| && TestFunctionAt(content, q).Some? && TestFunctionAt(content, q).value.name == n;
    DeclarationIsMatch(content, q);
    ExecLoopNonEmpty(ConventionMatcher(content), |content|, 0, q);
  }

  /** The convention names come in source order: the `k`-th is the name of a
      match starting at `ps[k]`, the starts strictly increase, and matches do not overlap. */
  lemma ConventionNamesInOrder(s: string) returns (ps: seq<nat>)
    ensures |ps| == |ConventionNames(s)|
    ensures forall k :: 0 <= k < |ps| ==>
              ps[k] < |s| && ConventionAt(s, ps[k]).Some? && ConventionAt(s, ps[k]).value.name == ConventionNames(s)[k]
    ensures forall j, k :: 0 <= j < k < |ps| ==> ps[j] < ConventionAt(s, ps[j]).value.end <= ps[k]
  {
    ConventionAdvances(s);
    var at := ConventionMatcher(s);
    ps := ExecStarts(at, |s|, 0);
    ExecStartsIncrease(at, |s|, 0);
    assert forall k :: 0 <= k < |ps| ==> at(ps[k]) == ConventionAt(s, ps[k]);
  }

  /** A bare `function testX(...)` declaration is itself a match of the convention pattern. */
  lemma DeclarationIsMatch(s: string, q: nat)
    requires TestFunctionAt(s, q).Some?
    ensures q < |s| && ConventionAt(s, q) == TestFunctionAt(s, q)
  {
    OccursAtFirst(s, "function", q);
    NotOccursAt(s, "/**", q);
    NotOccursAt(s, "public", q);
  }

  /** A declared test function is found, unless an earlier match (one that took a
      doc block, say) runs past its declaration. */
  lemma DeclaredTestFound(s: string, q: nat)
    requires TestFunctionAt(s, q).Some?
    ensures TestFunctionAt(s, q).value.name in ConventionNames(s)
            || exists p: nat :: p < q && ConventionAt(s, p).Some? && q < ConventionAt(s, p).value.end
  {
    DeclarationIsMatch(s, q);
    ConventionAdvances(s);
    ExecLoopComplete(ConventionMatcher(s), |s|, 0, q);
    if TestFunctionAt(s, q).value.name !in ConventionNames(s) {
      var p: nat :| p < q && ConventionMatcher(s)(p).Some? && q < ConventionMatcher(s)(p).value.end;
      assert ConventionMatcher(s)(p) == ConventionAt(s, p);
    }
  }

  // -------------------------------------------------------- annotated methods

  /** `public\s+function\s+(\w+)\s*\([^)]*\)` at index `k`. */
  function PublicFunctionAt(s: string, k: nat): (r: Option<Match>)
    ensures r.Some? ==> k < r.value.end <= |s| && IsIdentifier(r.value.name)
  {
    if !OccursAt(s, "public", k) then None
    else
      var a := Span(s, k + 6, IsSpace);
      if a == k + 6 || !OccursAt(s, "function", a) then None
      else
        var b := Span(s, a + 8, IsSpace);
        var c := Span(s, b, IsWordChar);
        if b == a + 8 || c == b then None
        else ParametersAt(s, c, s[b..c])
  }

  /** `public function` declarations at each index of `s`. */
  function PublicMatcher(s: string): nat -> Option<Match> {
    (k: nat) => PublicFunctionAt(s, k)
  }

  /** `@test[\s\S]*?public\s+function\s+(\w+)\s*\([^)]*\)` matched at index `i`. */
  function AnnotationAt(s: string, i: nat): (r: Option<Match>)
    requires i <= |s|
    ensures r.Some? ==> i < r.value.end <= |s| && IsIdentifier(r.value.name)
    ensures r.Some? ==> (OccursAt(s, "@test", i) &&
                         exists q: nat | i + 5 <= q <= |s| :: PublicFunctionAt(s, q) == r)
  {
    if OccursAt(s, "@test", i) then LazyMatch(PublicMatcher(s), |s|, i + 5) else None
  }

  /** An `@test` marker at `i` followed, at `q`, by `public function name(...)`. */
  predicate AnnotatedDeclaration(s: string, name: string, i: nat, q: nat) {
    OccursAt(s, "@test", i) && i + 5 <= q <= |s|
    && PublicFunctionAt(s, q).Some? && PublicFunctionAt(s, q).value.name == name
  }

  predicate IsAnnotated(s: string, name: string) {
    exists i: nat, q: nat | i <= q <= |s| :: AnnotatedDeclaration(s, name, i, q)
  }

  /** The annotation pattern's match at each index of `s`. */
  function AnnotationMatcher(s: string): nat -> Option<Match> {
    (i: nat) => if i <= |s| then AnnotationAt(s, i) else None
  }

  lemma AnnotationAdvances(s: string)
    ensures Advances(AnnotationMatcher(s), |s|)
  {
  }

  lemma AnnotationIsAnnotated(s: string, i: nat)
    requires i <= |s| && AnnotationAt(s, i).Some?
    ensures IsAnnotated(s, AnnotationAt(s, i).value.name)
  {
    var q: nat :| i + 5 <= q <= |s| && PublicFunctionAt(s, q) == AnnotationAt(s, i);
    assert AnnotatedDeclaration(s, AnnotationAt(s, i).value.name, i, q);
  }

  /** `findAnnotatedTestMethods`: every name found is an identifier declared by
      `public function name(...)` somewhere after an `@test` marker. */
  function AnnotatedNames(content: string): (r: seq<string>)
    ensures forall n :: n in r ==> IsIdentifier(n) && IsAnnotated(content, n)
    ensures (exists n :: IsAnnotated(content, n)) ==> r != []
  {
    AnnotationAdvances(content);
    var r := ExecLoop(AnnotationMatcher(content), |content|, 0);
    assert (exists n :: IsAnnotated(content, n)) ==> r != [] by {
      if exists n :: IsAnnotated(content, n) {
        var n :| IsAnnotated(content, n);
        AnnotationLoopNonEmpty(content, n);
      }
    }
    assert forall n :: n in r ==> IsIdentifier(n) && IsAnnotated(content, n) by {
      forall n | n in r ensures IsIdentifier(n) && IsAnnotated(content, n) {
        var p: nat :| p < |content| && AnnotationAt(content, p).Some? && AnnotationAt(content, p).value.name == n;
        AnnotationIsAnnotated(content, p);
      }
    }
    r
  }

  /** The annotated names come in source order: the `k`-th is the name of a
      match starting at `ps[k]`, the starts strictly increase, and matches do not overlap. */
  lemma AnnotatedNamesInOrder(s: string) returns (ps: seq<nat>)
    ensures |ps| == |AnnotatedNames(s)|
    ensures forall k :: 0 <= k < |ps| ==>
              ps[k] < |s| && AnnotationAt(s, ps[k]).Some? && AnnotationAt(s, ps[k]).value.name == AnnotatedNames(s)[k]
    ensures forall j, k :: 0 <= j < k < |ps| ==> ps[j] < AnnotationAt(s, ps[j]).value.end <= ps[k]
  {
    AnnotationAdvances(s);
    var at := AnnotationMatcher(s);
    ps := ExecStarts(at, |s|, 0);
    ExecStartsIncrease(at, |s|, 0);
    assert forall k :: 0 <= k < |ps| ==> at(ps[k]) == AnnotationAt(s, ps[k]);
  }

  /** An annotated declaration makes the annotation loop find something. */
  lemma AnnotationLoopNonEmpty(content: string, n: string)
    requires IsAnnotated(content, n)
    ensures Advances(AnnotationMatcher(content), |content|)
    ensures ExecLoop(AnnotationMatcher(content), |content|, 0) != []
  {
    AnnotationAdvances(content);
    var i: nat, q: nat :| i <= q <= |content| && AnnotatedDeclaration(content, n, i, q);
    AnnotationMatchSome(content, i, q);
    ExecLoopNonEmpty(AnnotationMatcher(content), |content|, 0, i);
  }

  /** An `@test` marker at `i` with a public declaration after it matches there. */
  lemma AnnotationMatchSome(s: string, i: nat, q: nat)
    requires OccursAt(s, "@test", i) && i + 5 <= q <= |s| && PublicFunctionAt(s, q).Some?
    ensures i < |s| && AnnotationMatcher(s)(i).Some?
  {
    LazyMatchFound(PublicMatcher(s), |s|, i + 5, q);
  }

  /** An `@test` marker at `i` whose next public declaration is at `q` matches there. */
  lemma AnnotationMatchIs(s: string, i: nat, q: nat)
    requires OccursAt(s, "@test", i) && i + 5 <= q <= |s| && PublicFunctionAt(s, q).Some?
    requires forall p: nat :: i + 5 <= p < q ==> PublicFunctionAt(s, p).None?
    ensures i < |s| && AnnotationMatcher(s)(i) == AnnotationAt(s, i) == PublicFunctionAt(s, q)
  {
    LazyMatchLeftmost(PublicMatcher(s), |s|, i + 5, q);
  }

  /** An `@test` marker at `i` whose next public declaration is at `q` is found
      with that declaration's name, unless an earlier match runs past the marker. */
  lemma AnnotatedTestFound(s: string, i: nat, q: nat)
    requires OccursAt(s, "@test", i) && i + 5 <= q <= |s| && PublicFunctionAt(s, q).Some?
    requires forall p: nat :: i + 5 <= p < q ==> PublicFunctionAt(s, p).None?
    ensures PublicFunctionAt(s, q).value.name in AnnotatedNames(s)
            || exists p: nat :: p < i && AnnotationAt(s, p).Some? && i < AnnotationAt(s, p).value.end
  {
    AnnotationMatchIs(s, i, q);
    AnnotationAdvances(s);
    ExecLoopComplete(AnnotationMatcher(s), |s|, 0, i);
    if PublicFunctionAt(s, q).value.name !in AnnotatedNames(s) {
      var p: nat :| p < i && AnnotationMatcher(s)(p).Some? && i < AnnotationMatcher(s)(p).value.end;
      assert AnnotationMatcher(s)(p) == AnnotationAt(s, p);
    }
  }

  // ------------------------------------------------------------------ records

  /** `createTestMethod`: a fresh record with status `Unknown` and no run history. */
  function CreateTestMethod(name: string, className: string, filePath: string, collection: Collection): TestMethod {
    TestMethod(name, className, filePath, collection, Some(Unknown), None, None, None)
  }

  function Names(ms: seq<TestMethod>): (r: seq<string>)
    ensures |r| == |ms| && forall k :: 0 <= k < |ms| ==> r[k] == ms[k].name
  {
    seq(|ms|, k requires 0 <= k < |ms| => ms[k].name)
  }

  predicate HasName(ms: seq<TestMethod>, name: string) {
    exists m | m in ms :: m.name == name
  }

  /** The records of `names`, in order. */
  function CreateAll(names: seq<string>, className: string, filePath: string, collection: Collection): (r: seq<TestMethod>)
    ensures |r| == |names|
    ensures forall k :: 0 <= k < |r| ==> r[k] == CreateTestMethod(names[k], className, filePath, collection)
  {
    seq(|names|, k requires 0 <= k < |names| => CreateTestMethod(names[k], className, filePath, collection))
  }

  /** The annotated half of `extractTestMethods`: each name is appended unless a
      record of that name is already present. */
  function AppendAnnotated(acc: seq<TestMethod>, names: seq<string>, className: string,
                           filePath: string, collection: Collection): (r: seq<TestMethod>)
    ensures |acc| <= |r| && r[..|acc|] == acc
    ensures forall k :: |acc| <= k < |r| ==>
              r[k] == CreateTestMethod(r[k].name, className, filePath, collection) && r[k].name in names
    ensures forall j, k :: 0 <= j < k < |r| && |acc| <= k ==> r[j].name != r[k].name
    ensures forall n :: n in names ==> HasName(r, n)
    decreases |names|
  {
    if names == [] then acc
    else if HasName(acc, names[0]) then
      var r := AppendAnnotated(acc, names[1..], className, filePath, collection);
      assert forall n :: n in names ==> n == names[0] || n in names[1..];
      assert forall m :: m in acc ==> m in r;
      r
    else
      var acc' := acc + [CreateTestMethod(names[0], className, filePath, collection)];
      var r := AppendAnnotated(acc', names[1..], className, filePath, collection);
      assert forall n :: n in names ==> n == names[0] || n in names[1..];
      assert r[..|acc'|][..|acc|] == r[..|acc|];
      assert r[|acc|] == acc'[|acc|];
      r
  }

  /** The names of `names` that are neither in `seen` nor earlier in `names`, in order. */
  function Unseen(seen: set<string>, names: seq<string>): seq<string>
    decreases |names|
  {
    if names == [] then []
    else if names[0] in seen then Unseen(seen, names[1..])
    else [names[0]] + Unseen(seen + {names[0]}, names[1..])
  }

  function NameSet(ms: seq<TestMethod>): set<string> {
    set m | m in ms :: m.name
  }

  lemma NamesAppend(a: seq<TestMethod>, b: seq<TestMethod>)
    ensures Names(a + b) == Names(a) + Names(b)
  {
    assert forall k :: 0 <= k < |a + b| ==> Names(a + b)[k] == (Names(a) + Names(b))[k];
  }

  /** `AppendAnnotated` adds, in order, the names not yet present and not added before. */
  lemma {:induction false} AppendAnnotatedOrder(acc: seq<TestMethod>, names: seq<string>, className: string,
                                                filePath: string, collection: Collection)
    ensures Names(AppendAnnotated(acc, names, className, filePath, collection)[|acc|..]) == Unseen(NameSet(acc), names)
    decreases |names|
  {
    if names == [] {
      assert AppendAnnotated(acc, names, className, filePath, collection)[|acc|..] == [];
    } else if HasName(acc, names[0]) {
      AppendAnnotatedSkip(acc, names, className, filePath, collection);
      AppendAnnotatedOrder(acc, names[1..], className, filePath, collection);
    } else {
      var acc' := acc + [CreateTestMethod(names[0], className, filePath, collection)];
      AppendAnnotatedAdd(acc, names, className, filePath, collection);
      AppendAnnotatedOrder(acc', names[1..], className, filePath, collection);
      NamesAppend([acc'[|acc|]], AppendAnnotated(acc', names[1..], className, filePath, collection)[|acc'|..]);
    }
  }

  lemma AppendAnnotatedSkip(acc: seq<TestMethod>, names: seq<string>, className: string,
                            filePath: string, collection: Collection)
    requires names != [] && HasName(acc, names[0])
    ensures AppendAnnotated(acc, names, className, filePath, collection)
            == AppendAnnotated(acc, names[1..], className, filePath, collection)
    ensures Unseen(NameSet(acc), names) == Unseen(NameSet(acc), names[1..])
  {
    var w :| w in acc && w.name == names[0];
    assert names[0] in NameSet(acc);
  }

  lemma AppendAnnotatedAdd(acc: seq<TestMethod>, names: seq<string>, className: string,
                           filePath: string, collection: Collection)
    requires names != [] && !HasName(acc, names[0])
    ensures var acc' := acc + [CreateTestMethod(names[0], className, filePath, collection)];
            && AppendAnnotated(acc, names, className, filePath, collection)[|acc|..]
               == [acc'[|acc|]] + AppendAnnotated(acc', names[1..], className, filePath, collection)[|acc'|..]
            && Unseen(NameSet(acc), names) == [acc'[|acc|].name] + Unseen(NameSet(acc'), names[1..])
  {
    var acc' := acc + [CreateTestMethod(names[0], className, filePath, collection)];
    var r := AppendAnnotated(acc', names[1..], className, filePath, collection);
    assert AppendAnnotated(acc, names, className, filePath, collection) == r;
    assert NameSet(acc') == NameSet(acc) + {names[0]};
    assert r[|acc|] == acc'[|acc|];
    assert r[|acc|..] == [r[|acc|]] + r[|acc'|..];
  }

  /** `extractTestMethods`: the convention matches in source order, duplicates
      kept, then each annotated match whose name is not yet present; every record
      is stamped with the class, path and collection and has status `Unknown`. */
  function ExtractTestMethods(content: string, className: string, filePath: string, collection: Collection): (r: seq<TestMethod>)
    ensures forall m :: m in r ==> m == CreateTestMethod(m.name, className, filePath, collection)
    ensures |ConventionNames(content)| <= |r|
    ensures Names(r[..|ConventionNames(content)|]) == ConventionNames(content)
    ensures forall j, k :: 0 <= j < k < |r| && |ConventionNames(content)| <= k ==> r[j].name != r[k].name
    ensures forall k :: |ConventionNames(content)| <= k < |r| ==> r[k].name in AnnotatedNames(content)
    ensures forall n :: n in AnnotatedNames(content) ==> HasName(r, n)
  {
    var conv := CreateAll(ConventionNames(content), className, filePath, collection);
    var r := AppendAnnotated(conv, AnnotatedNames(content), className, filePath, collection);
    assert r[..|conv|] == conv;
    assert forall m :: m in r ==> m == CreateTestMethod(m.name, className, filePath, collection) by {
      forall m | m in r ensures m == CreateTestMethod(m.name, className, filePath, collection) {
        var k :| 0 <= k < |r| && r[k] == m;
        if k < |conv| { assert r[k] == conv[k]; }
      }
    }
    r
  }

  /** The names of the records are exactly the convention names, in order and
      duplicates kept, followed by each annotated name, in order, that is neither a
      convention name nor already appended. */
  lemma ExtractTestMethodsNames(content: string, className: string, filePath: string, collection: Collection)
    ensures Names(ExtractTestMethods(content, className, filePath, collection))
            == ConventionNames(content) + Unseen((set n | n in ConventionNames(content)), AnnotatedNames(content))
  {
    var conv := CreateAll(ConventionNames(content), className, filePath, collection);
    CreateAllNames(ConventionNames(content), className, filePath, collection);
    AppendAnnotatedOrder(conv, AnnotatedNames(content), className, filePath, collection);
    PrefixNames(conv, AppendAnnotated(conv, AnnotatedNames(content), className, filePath, collection));
  }

  lemma CreateAllNames(names: seq<string>, className: string, filePath: string, collection: Collection)
    ensures Names(CreateAll(names, className, filePath, collection)) == names
    ensures NameSet(CreateAll(names, className, filePath, collection)) == set n | n in names
  {
    var r := CreateAll(names, className, filePath, collection);
    assert forall k :: 0 <= k < |r| ==> r[k].name == names[k];
  }

  /** The names of a sequence that extends `acc` are the names of `acc`, then of the rest. */
  lemma PrefixNames(acc: seq<TestMethod>, r: seq<TestMethod>)
    requires |acc| <= |r| && r[..|acc|] == acc
    ensures Names(r) == Names(acc) + Names(r[|acc|..])
  {
    assert r == acc + r[|acc|..];
    NamesAppend(acc, r[|acc|..]);
  }

  /** `parsePhpTestFile`; `content` is `None` when reading the file fails. A file
      that cannot be read or has no class declaration yields no method. */
  function ParsePhpTestFile(filePath: string, content: Option<string>, collection: Collection): (r: seq<TestMethod>)
    ensures content.None? ==> r == []
    ensures content.Some? && !HasClassDeclaration(content.value) ==> r == []
    ensures forall m :: m in r ==>
              && content.Some? && ExtractClassName(content.value) == Some(m.className)
              && m == CreateTestMethod(m.name, m.className, filePath, collection)
  {
    match content
    case None => []
    case Some(text) =>
      match ExtractClassName(text)
      case None => []
      case Some(className) => ExtractTestMethods(text, className, filePath, collection)
  }

  function ReadFile(files: map<string, string>, path: string): Option<string> {
    if path in files then Some(files[path]) else None
  }

  /** The per-file step of a batch: read the file, then parse it. */
  function ParseIn(files: map<string, string>, collection: Collection): string -> seq<TestMethod> {
    p => ParsePhpTestFile(p, ReadFile(files, p), collection)
  }

  /** `parseMultipleFiles`; `files` maps each readable path to its text. `Promise.all`
      keeps the input order, so the batch is the per-file results one after another. */
  function ParseMultipleFiles(filePaths: seq<string>, files: map<string, string>, collection: Collection): (r: seq<TestMethod>)
    ensures forall m :: m in r <==>
              exists i :: 0 <= i < |filePaths| && m in ParsePhpTestFile(filePaths[i], ReadFile(files, filePaths[i]), collection)
    ensures forall m :: m in r ==> m.collection == collection && filePaths != [] && m.filePath in filePaths
  {
    FlatMapMembers(ParseIn(files, collection), filePaths);
    FlatMap(ParseIn(files, collection), filePaths)
  }

  /** The batch result is the concatenation of the per-file results in input
      order; an unreadable file contributes nothing and leaves the others alone. */
  lemma ParseMultipleFilesConcat(a: seq<string>, b: seq<string>, files: map<string, string>, collection: Collection)
    ensures ParseMultipleFiles(a + b, files, collection)
            == ParseMultipleFiles(a, files, collection) + ParseMultipleFiles(b, files, collection)
  {
    FlatMapAppend(ParseIn(files, collection), a, b);
  }

  /** One file's batch result is its own parse; a file that cannot be read gives none. */
  lemma ParseMultipleFilesSingle(p: string, files: map<string, string>, collection: Collection)
    ensures ParseMultipleFiles([p], files, collection) == ParsePhpTestFile(p, ReadFile(files, p), collection)
    ensures p !in files ==> ParseMultipleFiles([p], files, collection) == []
  {
    FlatMapSingle(ParseIn(files, collection), p);
  }

  // --------------------------------------------------------------- validation

  /** `/class\s+\w+/.test(content)`. */
  predicate HasClassDeclaration(content: string) {
    exists i: nat | i <= |content| :: ClassAt(content, i).Some?
  }

  /** `function\s+test\w+` matched at index `i`. */
  predicate TestFunctionNameAt(s: string, i: nat) {
    OccursAt(s, "function", i)
    && var a := Span(s, i + 8, IsSpace);
       a > i + 8 && OccursAt(s, "test", a) && Span(s, a + 4, IsWordChar) > a + 4
  }

  /** `/(?:function\s+test\w+|@test[\s\S]*?function)/` matched at index `i`. */
  predicate TestSignalAt(s: string, i: nat) {
    TestFunctionNameAt(s, i)
    || (OccursAt(s, "@test", i) && exists k: nat | i + 5 <= k <= |s| :: OccursAt(s, "function", k))
  }

  predicate HasTestSignal(content: string) {
    exists i: nat | i <= |content| :: TestSignalAt(content, i)
  }

  /** `isValidPhpTestFile`; `content` is `None` when reading the file fails. */
  predicate IsValidPhpTestFile(filePath: string, content: Option<string>): (r: bool)
    ensures r ==> EndsWith(filePath, ".php")
    ensures r ==> content.Some? && ExtractClassName(content.value).Some?
  {
    EndsWith(filePath, ".php") && content.Some?
    && HasClassDeclaration(content.value) && HasTestSignal(content.value)
  }

  /** The validator never rejects a `.php` file from which the extractor takes
      a method: a found method implies a class declaration and a test signal. */
  lemma ParsedFileIsValid(filePath: string, content: Option<string>, collection: Collection)
    requires EndsWith(filePath, ".php")
    requires ParsePhpTestFile(filePath, content, collection) != []
    ensures IsValidPhpTestFile(filePath, content)
  {
    var text := content.value;
    var className := ExtractClassName(text).value;
    var r := ExtractTestMethods(text, className, filePath, collection);
    var conv := ConventionNames(text);
    if |conv| > 0 {
      ConventionNameSignals(text, conv[0]);
    } else {
      AnnotatedNameSignals(text, r[0].name);
    }
  }

  /** A name the convention scan finds comes with a `function test…` signal. */
  lemma ConventionNameSignals(text: string, n: string)
    requires n in ConventionNames(text)
    ensures HasTestSignal(text)
  {
    var q: nat :| q <= |text| && TestFunctionAt(text, q).Some? && TestFunctionAt(text, q).value.name == n;
    assert TestSignalAt(text, q);
  }

  /** A name the annotation scan finds comes with a `@test … function` signal. */
  lemma AnnotatedNameSignals(text: string, n: string)
    requires n in AnnotatedNames(text)
    ensures HasTestSignal(text)
  {
    var i: nat, q: nat :| i <= q <= |text| && AnnotatedDeclaration(text, n, i, q);
    PublicDeclarationHasFunction(text, q);
    var f: nat :| q <= f <= |text| && OccursAt(text, "function", f);
    assert TestSignalAt(text, i);
  }

  lemma PublicDeclarationHasFunction(s: string, q: nat)
    requires PublicFunctionAt(s, q).Some?
    ensures exists f: nat | q <= f <= |s| :: OccursAt(s, "function", f)
  {
    var a := Span(s, q + 6, IsSpace);
    assert OccursAt(s, "function", a);
  }
}

=== FILE: runner.dfy ===
/** The test runner of src/services/TestRunner.ts: how run commands are built,
    how captured output is classified, which short error message is drawn from
    it, and which status updates a run reports through its callback.

    The external process is not modelled: a run's result is an `Outcome`, the
    concatenated standard output and error text plus the message of the error
    `exec` reported, if any. The run's start and end clocks are parameters. */
module Runner {
  import opened Options
  import opened Strings
  import opened Types
  import opened Seqs

  /** What `exec` hands its callback: `stdout + stderr`, and the error, if any. */
  datatype Outcome = Outcome(output: string, execError: Option<string>)

  /** The status and the short message a single-method run derives from its output. */
  datatype Diagnosis = Diagnosis(status: TestStatus, message: string, details: string)

  // ------------------------------------------------------------- commands

  /** The collection runs inside a container: `useDocker` is true and the image
      name is present and non-empty. */
  predicate UsesDocker(c: Collection) {
    c.useDocker == Some(true) && c.dockerImage.Some? && c.dockerImage.value != []
  }

  /** `buildDockerCommand`: prefix `docker exec <image> ` (no `-it`) when the
      collection runs inside a container. */
  function DockerCommand(c: Collection, command: string): (r: string)
    ensures EndsWith(r, command)
    ensures !UsesDocker(c) <==> r == command
    ensures UsesDocker(c) ==> r == "docker exec " + c.dockerImage.value + " " + command
  {
    if UsesDocker(c) then "docker exec " + c.dockerImage.value + " " + command else command
  }

  /** `--filter "<selector>"`, as PHPUnit receives it. */
  function FilterOption(selector: string): string {
    "--filter \"" + selector + "\""
  }

  /** The command of `runTestMethod`: base command, a filter on `Class::method`,
      then the file path relative to the first workspace folder. */
  function MethodCommand(m: TestMethod, relativePath: string): (r: string)
    ensures Contains(r, FilterOption(m.className + "::" + m.name))
    ensures EndsWith(r, " " + relativePath)
    ensures !UsesDocker(m.collection) ==> r == m.collection.command + " " + FilterOption(m.className + "::" + m.name) + " " + relativePath
    ensures UsesDocker(m.collection) ==>
              r == "docker exec " + m.collection.dockerImage.value + " "
                   + m.collection.command + " " + FilterOption(m.className + "::" + m.name) + " " + relativePath
  {
    var inner := m.collection.command + " " + FilterOption(m.className + "::" + m.name) + " " + relativePath;
    ContainsInfix(m.collection.command + " ", FilterOption(m.className + "::" + m.name), " " + relativePath);
    assert inner == (m.collection.command + " ") + FilterOption(m.className + "::" + m.name) + (" " + relativePath);
    ContainsInSuffix(DockerCommand(m.collection, inner), inner, FilterOption(m.className + "::" + m.name));
    EndsWithTransitive(DockerCommand(m.collection, inner), inner, " " + relativePath);
    DockerCommand(m.collection, inner)
  }

  /** The command of `runTestFile`, or `None` when the run stops before
      building one: no workspace, no cache entry for the collection, or no
      cached method for the file. The filter names the class of the first
      cached method of the file. */
  function FileCommand(hasWorkspace: bool, index: Index, c: Collection, filePath: string, relativePath: string): (r: Option<string>)
    ensures r.Some? <==> hasWorkspace && c.name in index && MethodsOfFile(index[c.name].methods, filePath) != []
    ensures r.Some? ==>
              var cls := MethodsOfFile(index[c.name].methods, filePath)[0].className;
              Contains(r.value, FilterOption(cls)) && EndsWith(r.value, " " + relativePath)
              && (!UsesDocker(c) ==> r.value == c.command + " " + FilterOption(cls) + " " + relativePath)
              && (UsesDocker(c) ==>
                    r.value == "docker exec " + c.dockerImage.value + " " + c.command + " " + FilterOption(cls) + " " + relativePath)
  {
    if !hasWorkspace || c.name !in index then None
    else
      var ms := MethodsOfFile(index[c.name].methods, filePath);
      if ms == [] then None
      else
        var inner := c.command + " " + FilterOption(ms[0].className) + " " + relativePath;
        ContainsInfix(c.command + " ", FilterOption(ms[0].className), " " + relativePath);
        assert inner == (c.command + " ") + FilterOption(ms[0].className) + (" " + relativePath);
        ContainsInSuffix(DockerCommand(c, inner), inner, FilterOption(ms[0].className));
        EndsWithTransitive(DockerCommand(c, inner), inner, " " + relativePath);
        Some(DockerCommand(c, inner))
  }

  /** The command `runTestCollection` sends to the collection's terminal:
      the collection's own command, wrapped for the container if needed. */
  function CollectionCommand(hasWorkspace: bool, c: Collection): (r: Option<string>)
    ensures r.Some? <==> hasWorkspace
    ensures r.Some? ==> EndsWith(r.value, c.command)
    ensures r.Some? && !UsesDocker(c) ==> r.value == c.command
    ensures r.Some? && UsesDocker(c) ==> r.value == "docker exec " + c.dockerImage.value + " " + c.command
  {
    if hasWorkspace then Some(DockerCommand(c, c.command)) else None
  }

  lemma ContainsInfix(a: string, t: string, b: string)
    ensures Contains(a + t + b, t)
  {
    assert (a + t + b)[|a|..|a| + |t|] == t;
    assert OccursAt(a + t + b, t, |a|);
  }

  lemma ContainsInSuffix(s: string, u: string, t: string)
    requires EndsWith(s, u) && Contains(u, t)
    ensures Contains(s, t)
  {
    var i: nat :| i <= |u| && OccursAt(u, t, i);
    var d := |s| - |u|;
    assert s[d..][i..i + |t|] == s[d + i..d + i + |t|];
    assert OccursAt(s, t, d + i);
  }

  lemma EndsWithTransitive(s: string, u: string, t: string)
    requires EndsWith(s, u) && EndsWith(u, t)
    ensures EndsWith(s, t)
  {
    assert s[|s| - |t|..] == s[|s| - |u|..][|u| - |t|..];
  }

  // -------------------------------------------------------- classification

  /** `executeTestWithCapture`: `OK (` wins over every failure marker; then
      `FAILURES!`, `ERRORS!` or an exec error mean Failed; anything else is Unknown. */
  function Classify(o: Outcome): (r: TestStatus)
    ensures r == Passed <==> Contains(o.output, "OK (")
    ensures r == Failed <==>
              !Contains(o.output, "OK (")
              && (Contains(o.output, "FAILURES!") || Contains(o.output, "ERRORS!") || o.execError.Some?)
    ensures r == Passed || r == Failed || r == Unknown
  {
    if Contains(o.output, "OK (") then Passed
    else if Contains(o.output, "FAILURES!") || Contains(o.output, "ERRORS!") || o.execError.Some? then Failed
    else Unknown
  }

  /** The per-method verdict of the `runTestFile` completion loop. */
  function FileMethodStatus(name: string, o: Outcome): (r: TestStatus)
    ensures r == Passed || r == Failed || r == Unknown
    ensures !(Contains(o.output, name + " ...") || Contains(o.output, name + ":")) ==>
              (r == Failed <==> o.execError.Some?) && (r == Passed <==> o.execError.None?)
    ensures (Contains(o.output, name + " ...") || Contains(o.output, name + ":")) ==>
              (r == Passed <==> Contains(o.output, "OK") && !Contains(o.output, "FAILURES") && !Contains(o.output, "ERRORS"))
              && (r == Failed <==> !(Contains(o.output, "OK") && !Contains(o.output, "FAILURES") && !Contains(o.output, "ERRORS"))
                                   && (Contains(o.output, "FAILURES") || Contains(o.output, "ERRORS") || Contains(o.output, "FAILED")))
  {
    if Contains(o.output, name + " ...") || Contains(o.output, name + ":") then
      if Contains(o.output, "OK") && !Contains(o.output, "FAILURES") && !Contains(o.output, "ERRORS") then Passed
      else if Contains(o.output, "FAILURES") || Contains(o.output, "ERRORS") || Contains(o.output, "FAILED") then Failed
      else Unknown
    else if o.execError.Some? then Failed
    else Passed
  }

  // ------------------------------------------------------ error extraction

  /** The limit on collected error lines. */
  const MaxSectionLines: nat := 5

  /** A line that opens an error section. */
  predicate IsMarker(line: string) {
    Contains(line, "FAILURES:") || Contains(line, "ERRORS:")
  }

  /** `line.trim() === ''`, which holds exactly of the lines made of white
      space only (Strings.TrimEmptyIffBlank). */
  predicate IsBlank(line: string) {
    AllSpace(line)
  }

  /** The capture phase: marker lines are skipped, blank lines are skipped until
      something is collected and end the section afterwards, and the section
      ends as soon as it holds five lines. */
  function Capture(lines: seq<string>, acc: seq<string>): (r: seq<string>)
    requires |acc| < MaxSectionLines
    ensures acc <= r && |r| <= MaxSectionLines
    ensures forall i :: |acc| <= i < |r| ==> r[i] in lines && !IsBlank(r[i]) && !IsMarker(r[i])
  {
    if lines == [] then acc
    else if IsMarker(lines[0]) then Capture(lines[1..], acc)
    else if IsBlank(lines[0]) then (if acc != [] then acc else Capture(lines[1..], acc))
    else if |acc| + 1 >= MaxSectionLines then acc + [lines[0]]
    else
      var r := Capture(lines[1..], acc + [lines[0]]);
      assert r[|acc|] == lines[0];
      r
  }

  /** The error section of an output split into lines: what follows the first
      marker line, as the capture phase collects it. */
  function ErrorSection(lines: seq<string>): (r: seq<string>)
    ensures |r| <= MaxSectionLines
    ensures forall l :: l in r ==> l in lines && !IsBlank(l) && !IsMarker(l)
    ensures (forall l :: l in lines ==> !IsMarker(l)) ==> r == []
  {
    if lines == [] then []
    else if IsMarker(lines[0]) then Capture(lines[1..], [])
    else ErrorSection(lines[1..])
  }

  /** A line the capture phase keeps: neither blank nor a marker. */
  predicate IsContent(line: string) {
    !IsBlank(line) && !IsMarker(line)
  }

  lemma MarkerNotBlank(line: string)
    requires IsMarker(line)
    ensures !IsBlank(line)
  {
    var t := if Contains(line, "FAILURES:") then "FAILURES:" else "ERRORS:";
    var i: nat :| i <= |line| && OccursAt(line, t, i);
    assert line[i] == line[i..i + |t|][0] == t[0];
  }

  /** The capture phase keeps the content lines of a window `lines[..e]` of the
      lines it reads: inside the window no blank line follows a kept line, and
      the window ends at the end of the output, at the fifth kept line, or at a
      blank line once something is kept. */
  lemma {:induction false} CaptureWindow(lines: seq<string>, acc: seq<string>) returns (e: nat)
    requires |acc| < MaxSectionLines
    ensures e <= |lines|
    ensures Capture(lines, acc) == acc + Filter(IsContent, lines[..e])
    ensures forall k :: 0 <= k < e && IsBlank(lines[k]) ==> acc + Filter(IsContent, lines[..k]) == []
    ensures e < |lines| ==>
              |Capture(lines, acc)| == MaxSectionLines || (IsBlank(lines[e]) && Capture(lines, acc) != [])
    decreases |lines|
  {
    if lines == [] {
      e := 0;
    } else if IsMarker(lines[0]) || (IsBlank(lines[0]) && acc == []) {
      if IsMarker(lines[0]) {
        MarkerNotBlank(lines[0]);
      }
      var e' := CaptureWindow(lines[1..], acc);
      e := e' + 1;
      WindowStep(lines, acc, acc, e');
    } else if IsBlank(lines[0]) {
      e := 0;
    } else if |acc| + 1 >= MaxSectionLines {
      e := 1;
      FilterCons(IsContent, lines[0], []);
      assert lines[..1] == [lines[0]] + [];
    } else {
      var e' := CaptureWindow(lines[1..], acc + [lines[0]]);
      e := e' + 1;
      WindowStep(lines, acc, acc + [lines[0]], e');
    }
  }

  /** Reading one line ahead moves that line, if kept, from the window into the kept lines. */
  lemma WindowShift(lines: seq<string>, acc: seq<string>, acc': seq<string>, j: nat)
    requires lines != [] && j <= |lines| - 1
    requires acc' == acc + (if IsContent(lines[0]) then [lines[0]] else [])
    ensures acc' + Filter(IsContent, lines[1..][..j]) == acc + Filter(IsContent, lines[..j + 1])
  {
    assert lines[..j + 1] == [lines[0]] + lines[1..][..j];
    FilterCons(IsContent, lines[0], lines[1..][..j]);
  }

  /** One line read ahead of a window of the rest. */
  lemma WindowStep(lines: seq<string>, acc: seq<string>, acc': seq<string>, e': nat)
    requires lines != [] && e' <= |lines| - 1
    requires acc' == acc + (if IsContent(lines[0]) then [lines[0]] else [])
    requires IsBlank(lines[0]) ==> acc == []
    requires forall k :: 0 <= k < e' && IsBlank(lines[1..][k]) ==> acc' + Filter(IsContent, lines[1..][..k]) == []
    ensures acc' + Filter(IsContent, lines[1..][..e']) == acc + Filter(IsContent, lines[..e' + 1])
    ensures forall k :: 0 <= k < e' + 1 && IsBlank(lines[k]) ==> acc + Filter(IsContent, lines[..k]) == []
  {
    WindowShift(lines, acc, acc', e');
    forall k | 0 <= k < e' + 1 && IsBlank(lines[k])
      ensures acc + Filter(IsContent, lines[..k]) == []
    {
      if k == 0 {
        assert lines[..0] == [];
      } else {
        assert lines[k] == lines[1..][k - 1];
        WindowShift(lines, acc, acc', k - 1);
      }
    }
  }

  /** After the capture phase starts at `from` with nothing kept, its first
      line is the first content line it reads. */
  lemma {:induction false} CaptureFirst(lines: seq<string>, from: nat, k: nat)
    requires from <= k < |lines| && IsContent(lines[k])
    requires forall j :: from <= j < k ==> !IsContent(lines[j])
    ensures Capture(lines[from..], []) != [] && Capture(lines[from..], [])[0] == lines[k]
    decreases k - from
  {
    assert lines[from..][0] == lines[from] && lines[from..][1..] == lines[from + 1..];
    if from < k {
      if IsMarker(lines[from]) {
        MarkerNotBlank(lines[from]);
      }
      CaptureFirst(lines, from + 1, k);
    }
  }

  /** Without a content line from `from` on, the capture phase keeps nothing more. */
  lemma {:induction false} CaptureNoContent(lines: seq<string>, from: nat, acc: seq<string>)
    requires from <= |lines| && |acc| < MaxSectionLines
    requires forall j :: from <= j < |lines| ==> !IsContent(lines[j])
    ensures Capture(lines[from..], acc) == acc
    decreases |lines| - from
  {
    if from < |lines| {
      assert lines[from..][0] == lines[from] && lines[from..][1..] == lines[from + 1..];
      CaptureNoContent(lines, from + 1, acc);
    }
  }

  /** The section is what the capture phase keeps after the first marker line. */
  lemma {:induction false} ErrorSectionAfterFirstMarker(lines: seq<string>, i: nat)
    requires i < |lines| && IsMarker(lines[i])
    requires forall j :: 0 <= j < i ==> !IsMarker(lines[j])
    ensures ErrorSection(lines) == Capture(lines[i + 1..], [])
    decreases i
  {
    if i > 0 {
      assert !IsMarker(lines[0]);
      ErrorSectionAfterFirstMarker(lines[1..], i - 1);
      assert lines[1..][i..] == lines[i + 1..];
    }
  }

  /** The section starts with the first content line after the first marker. */
  lemma ErrorSectionFirstLine(lines: seq<string>, i: nat, k: nat)
    requires i < |lines| && IsMarker(lines[i])
    requires forall j :: 0 <= j < i ==> !IsMarker(lines[j])
    requires i < k < |lines| && IsContent(lines[k])
    requires forall j :: i < j < k ==> !IsContent(lines[j])
    ensures ErrorSection(lines) != [] && ErrorSection(lines)[0] == lines[k]
  {
    ErrorSectionAfterFirstMarker(lines, i);
    CaptureFirst(lines, i + 1, k);
  }

  /** The section is non-empty exactly when a content line follows the first marker. */
  lemma ErrorSectionNonEmptyIff(lines: seq<string>, i: nat)
    requires i < |lines| && IsMarker(lines[i])
    requires forall j :: 0 <= j < i ==> !IsMarker(lines[j])
    ensures ErrorSection(lines) != [] <==> exists k :: i < k < |lines| && IsContent(lines[k])
  {
    if exists k :: i < k < |lines| && IsContent(lines[k]) {
      var k := FirstContent(lines, i + 1);
      ErrorSectionFirstLine(lines, i, k);
    } else {
      ErrorSectionAfterFirstMarker(lines, i);
      CaptureNoContent(lines, i + 1, []);
    }
  }

  /** The section is the content lines of a window `lines[i + 1..e]` after the
      first marker: no blank line in the window follows a kept line, and the
      window ends at the end of the output, at the fifth kept line, or at a
      blank line once something is kept. */
  lemma ErrorSectionWindow(lines: seq<string>, i: nat) returns (e: nat)
    requires i < |lines| && IsMarker(lines[i])
    requires forall j :: 0 <= j < i ==> !IsMarker(lines[j])
    ensures i + 1 <= e <= |lines|
    ensures ErrorSection(lines) == Filter(IsContent, lines[i + 1..e])
    ensures forall k :: i + 1 <= k < e && IsBlank(lines[k]) ==> Filter(IsContent, lines[i + 1..k]) == []
    ensures e < |lines| ==>
              |ErrorSection(lines)| == MaxSectionLines || (IsBlank(lines[e]) && ErrorSection(lines) != [])
  {
    ErrorSectionAfterFirstMarker(lines, i);
    var rest := lines[i + 1..];
    var w := CaptureWindow(rest, []);
    e := i + 1 + w;
    assert rest[..w] == lines[i + 1..e];
    forall k | i + 1 <= k < e && IsBlank(lines[k])
      ensures Filter(IsContent, lines[i + 1..k]) == []
    {
      assert rest[k - i - 1] == lines[k];
      SuffixPrefix(lines, i + 1, k);
    }
    if e < |lines| {
      assert rest[w] == lines[e];
    }
  }

  /** A prefix of a suffix is a slice. */
  lemma SuffixPrefix(lines: seq<string>, a: nat, b: nat)
    requires a <= b <= |lines|
    ensures lines[a..][..b - a] == lines[a..b]
  {
  }

  /** The first content line at or after `from`, when there is one. */
  lemma {:induction false} FirstContent(lines: seq<string>, from: nat) returns (k: nat)
    requires exists k :: from <= k < |lines| && IsContent(lines[k])
    ensures from <= k < |lines| && IsContent(lines[k])
    ensures forall j :: from <= j < k ==> !IsContent(lines[j])
    decreases |lines| - from
  {
    if IsContent(lines[from]) {
      k := from;
    } else {
      k := FirstContent(lines, from + 1);
    }
  }

  /** The loop of `executeTestWithCapture` that gathers the error section. */
  method CollectErrorSection(lines: seq<string>) returns (section: seq<string>)
    ensures section == ErrorSection(lines)
  {
    var capturing := false;
    section := [];
    var i := 0;
    while i < |lines|
      invariant 0 <= i <= |lines|
      invariant |section| < MaxSectionLines
      invariant !capturing ==> section == [] && ErrorSection(lines) == ErrorSection(lines[i..])
      invariant capturing ==> ErrorSection(lines) == Capture(lines[i..], section)
      invariant capturing || section == []
    {
      var line := lines[i];
      assert lines[i..][0] == line && lines[i..][1..] == lines[i + 1..];
      if IsMarker(line) {
        capturing := true;
        i := i + 1;
        continue;
      }
      if capturing {
        if IsBlank(line) && |section| > 0 {
          return;
        }
        if !IsBlank(line) {
          section := section + [line];
        }
        if |section| >= MaxSectionLines {
          return;
        }
      }
      i := i + 1;
    }
  }

  /** `s.replace(/^\d+\)\s*\/, '')`: drop a leading `12) ` numbering. */
  function StripNumbering(s: string): (r: string)
    ensures |r| <= |s| && r == s[|s| - |r|..]
    ensures r != s <==>
              exists d: nat | 0 < d < |s| :: (forall k :: 0 <= k < d ==> IsDigit(s[k])) && s[d] == ')'
    ensures r != s ==>
              (r == [] || !IsSpace(r[0]))
              && exists d: nat | 0 < d < |s| - |r| ::
                   (forall k :: 0 <= k < d ==> IsDigit(s[k])) && s[d] == ')'
                   && (forall k :: d < k < |s| - |r| ==> IsSpace(s[k]))
  {
    var d := Span(s, 0, IsDigit);
    if 0 < d < |s| && s[d] == ')' then
      var e := Span(s, d + 1, IsSpace);
      s[e..]
    else
      NumberingPosition(s);
      s
  }

  /** A `)` after a run of digits sits exactly where the leading digits end. */
  lemma NumberingEndsDigits(s: string, d: nat)
    requires d < |s| && (forall k :: 0 <= k < d ==> IsDigit(s[k])) && s[d] == ')'
    ensures Span(s, 0, IsDigit) == d
  {
    assert !IsDigit(s[d]);
  }

  /** Every `)` closing a run of leading digits sits where those digits end. */
  lemma NumberingPosition(s: string)
    ensures forall d: nat | d < |s| && (forall k :: 0 <= k < d ==> IsDigit(s[k])) && s[d] == ')' ::
              d == Span(s, 0, IsDigit)
  {
    forall d: nat | d < |s| && (forall k :: 0 <= k < d ==> IsDigit(s[k])) && s[d] == ')'
      ensures d == Span(s, 0, IsDigit)
    {
      NumberingEndsDigits(s, d);
    }
  }

  /** Diagnose a single-method run: its status, and for a failure the first
      line of the error section without its numbering, trimmed, and the first
      three lines of the section joined by line breaks. With no error section
      the message is the exec error's, if any. */
  function Diagnose(o: Outcome): (r: Diagnosis)
    ensures r.status == Classify(o)
    ensures r.status != Failed ==> r.message == [] && r.details == []
    ensures r.status == Failed && ErrorSection(Split(o.output, '\n')) == [] ==>
              r.details == [] && r.message == (if o.execError.Some? then o.execError.value else [])
    ensures r.status == Failed && ErrorSection(Split(o.output, '\n')) != [] ==>
              var section := ErrorSection(Split(o.output, '\n'));
              r.message == Trim(StripNumbering(section[0]))
              && Split(r.details, '\n') == section[..if |section| < 3 then |section| else 3]
  {
    var status := Classify(o);
    if status != Failed then Diagnosis(status, [], [])
    else
      var lines := Split(o.output, '\n');
      var section := ErrorSection(lines);
      if section != [] then
        var shown := section[..if |section| < 3 then |section| else 3];
        assert forall i :: 0 <= i < |shown| ==> '\n' !in shown[i] by {
          forall i | 0 <= i < |shown| ensures '\n' !in shown[i] {
            assert shown[i] in section;
          }
        }
        SplitJoin(shown, '\n');
        Diagnosis(status, Trim(StripNumbering(section[0])), Join(shown, '\n'))
      else if o.execError.Some? then Diagnosis(status, o.execError.value, [])
      else Diagnosis(status, [], [])
  }

  // ----------------------------------------------------------- run events

  /** The snapshot a run reports before executing: status Running, the start
      time, and no error message. */
  function Started(m: TestMethod, startedAt: Millis): TestMethod {
    m.(status := Some(Running), lastRun := Some(startedAt), errorMessage := None)
  }

  /** The snapshot a run reports once the output is in: the verdict, the end
      time, and the whole output as the error message. */
  function Finished(m: TestMethod, status: TestStatus, o: Outcome, finishedAt: Millis): TestMethod {
    m.(status := Some(status), lastRun := Some(finishedAt), errorMessage := Some(o.output))
  }

  /** The callbacks of `runTestMethod`: none without a workspace, otherwise
      Running first and then one final update carrying the classified status
      and the whole output, whatever the status. */
  function MethodRunEvents(m: TestMethod, hasWorkspace: bool, o: Outcome, startedAt: Millis, finishedAt: Millis): (r: seq<TestMethod>)
    ensures !hasWorkspace ==> r == []
    ensures hasWorkspace ==>
              |r| == 2 && r[0].status == Some(Running) && r[0].errorMessage == None
              && r[1].status == Some(Classify(o)) && r[1].errorMessage == Some(o.output)
              && r[1].lastRun == Some(finishedAt)
    ensures forall e :: e in r ==>
              e.name == m.name && e.className == m.className && e.filePath == m.filePath
              && e.collection == m.collection && e.failureDetails == m.failureDetails
  {
    if !hasWorkspace then []
    else [Started(m, startedAt), Finished(m, Classify(o), o, finishedAt)]
  }

  /** The callbacks of `runTestFile`: nothing when no command is built;
      otherwise one Running update per cached method of the file, then one
      completion per method, both in cached order. */
  function FileRunEvents(hasWorkspace: bool, index: Index, c: Collection, filePath: string, o: Outcome,
                         startedAt: Millis, finishedAt: Millis): (r: seq<TestMethod>)
    ensures !hasWorkspace || c.name !in index || MethodsOfFile(index[c.name].methods, filePath) == [] ==> r == []
    ensures hasWorkspace && c.name in index ==>
              var ms := MethodsOfFile(index[c.name].methods, filePath);
              |r| == 2 * |ms|
              && (forall i :: 0 <= i < |ms| ==> r[i] == Started(ms[i], startedAt))
              && (forall i :: 0 <= i < |ms| ==>
                    r[|ms| + i] == Finished(ms[i], FileMethodStatus(ms[i].name, o), o, finishedAt))
  {
    if !hasWorkspace || c.name !in index then []
    else
      var ms := MethodsOfFile(index[c.name].methods, filePath);
      if ms == [] then []
      else
        seq(|ms|, i requires 0 <= i < |ms| => Started(ms[i], startedAt))
        + seq(|ms|, i requires 0 <= i < |ms| => Finished(ms[i], FileMethodStatus(ms[i].name, o), o, finishedAt))
  }

  // ------------------------------------------------------ manual override

  /** The four choices of the status quick-pick. */
  predicate IsManualChoice(s: TestStatus) {
    s == Passed || s == Failed || s == Skipped || s == Unknown
  }

  /** `setTestStatusManually`: a dismissed pick changes nothing; otherwise the
      chosen status and the time are set, a non-Failed choice clears the
      message, and Failed takes the typed message when one is given. */
  function SetStatusManually(m: TestMethod, pick: Option<TestStatus>, input: Option<string>, now: Millis): (r: TestMethod)
    requires pick.Some? ==> IsManualChoice(pick.value)
    ensures pick.None? ==> r == m
    ensures pick.Some? ==>
              r.status == pick && r.lastRun == Some(now)
              && r == m.(status := r.status, lastRun := r.lastRun, errorMessage := r.errorMessage)
    ensures pick.Some? && pick.value != Failed ==> r.errorMessage == None
    ensures pick == Some(Failed) ==>
              r.errorMessage == (if input.Some? && input.value != [] then input else m.errorMessage)
  {
    match pick
    case None => m
    case Some(s) =>
      var message :=
        if s != Failed then None
        else if input.Some? && input.value != [] then input
        else m.errorMessage;
      m.(status := Some(s), lastRun := Some(now), errorMessage := message)
  }
}

=== FILE: seqs.dfy ===
/** The sequence combinators the extension leans on: `map`, `flatMap` and
    `filter` of JavaScript arrays, with the laws the model uses about them. */
module Seqs {

  /** `xs.map(f)`. */
  function MapSeq<A, B>(f: A -> B, xs: seq<A>): (r: seq<B>)
    ensures |r| == |xs| && forall i :: 0 <= i < |xs| ==> r[i] == f(xs[i])
  {
    seq(|xs|, i requires 0 <= i < |xs| => f(xs[i]))
  }

  lemma MapSeqConcat<A, B>(f: A -> B, xs: seq<A>, ys: seq<A>)
    ensures MapSeq(f, xs + ys) == MapSeq(f, xs) + MapSeq(f, ys)
  {
    assert forall i :: 0 <= i < |xs + ys| ==> (xs + ys)[i] == if i < |xs| then xs[i] else ys[i - |xs|];
  }

  /** `xs.flatMap(f)`: the images of the elements, joined in order. */
  function FlatMap<A, B>(f: A -> seq<B>, xs: seq<A>): seq<B> {
    if xs == [] then [] else f(xs[0]) + FlatMap(f, xs[1..])
  }

  /** Mapping and joining distributes over concatenation. */
  lemma {:induction false} FlatMapAppend<A, B>(f: A -> seq<B>, a: seq<A>, b: seq<A>)
    ensures FlatMap(f, a + b) == FlatMap(f, a) + FlatMap(f, b)
  {
    if a == [] {
      assert a + b == b;
    } else {
      FlatMapAppend(f, a[1..], b);
      assert (a + b)[1..] == a[1..] + b;
      assert (a + b)[0] == a[0];
      calc {
        FlatMap(f, a + b);
        f(a[0]) + FlatMap(f, a[1..] + b);
        f(a[0]) + (FlatMap(f, a[1..]) + FlatMap(f, b));
        (f(a[0]) + FlatMap(f, a[1..])) + FlatMap(f, b);
      }
    }
  }

  /** An element of the joined images is in the image of some element. */
  lemma {:induction false} FlatMapMembers<A, B>(f: A -> seq<B>, xs: seq<A>)
    ensures forall y :: y in FlatMap(f, xs) <==> exists i :: 0 <= i < |xs| && y in f(xs[i])
  {
    if xs != [] {
      FlatMapMembers(f, xs[1..]);
      assert forall i :: 1 <= i < |xs| ==> xs[i] == xs[1..][i - 1];
      assert forall y, i :: 0 <= i < |xs[1..]| && y in f(xs[1..][i]) ==> y in f(xs[i + 1]);
    }
  }

  lemma FlatMapSingle<A, B>(f: A -> seq<B>, x: A)
    ensures FlatMap(f, [x]) == f(x)
  {
    assert [x][1..] == [];
    assert FlatMap(f, [x]) == f(x) + FlatMap(f, []);
  }

  /** `xs.filter(keep)`: the kept elements in their order. */
  function Filter<T>(keep: T -> bool, xs: seq<T>): seq<T> {
    if xs == [] then []
    else if keep(xs[0]) then [xs[0]] + Filter(keep, xs[1..])
    else Filter(keep, xs[1..])
  }

  /** The filter keeps exactly the elements `keep` accepts. */
  lemma {:induction false} FilterMembers<T>(keep: T -> bool, xs: seq<T>)
    ensures |Filter(keep, xs)| <= |xs|
    ensures forall i :: 0 <= i < |Filter(keep, xs)| ==> Filter(keep, xs)[i] in xs && keep(Filter(keep, xs)[i])
    ensures forall i :: 0 <= i < |xs| && keep(xs[i]) ==> xs[i] in Filter(keep, xs)
  {
    if xs != [] {
      FilterMembers(keep, xs[1..]);
      assert forall i :: 1 <= i < |xs| ==> xs[i] == xs[1..][i - 1];
    }
  }

  lemma FilterCons<T>(keep: T -> bool, x: T, ys: seq<T>)
    ensures Filter(keep, [x] + ys) == (if keep(x) then [x] else []) + Filter(keep, ys)
  {
    assert ([x] + ys)[0] == x && ([x] + ys)[1..] == ys;
  }

  /** Filtering distributes over concatenation. */
  lemma {:induction false} FilterAppend<T>(keep: T -> bool, a: seq<T>, b: seq<T>)
    ensures Filter(keep, a + b) == Filter(keep, a) + Filter(keep, b)
  {
    if a == [] {
      assert a + b == b;
    } else {
      FilterAppend(keep, a[1..], b);
      assert (a + b)[0] == a[0];
      assert (a + b)[1..] == a[1..] + b;
      if keep(a[0]) {
        calc {
          Filter(keep, a + b);
          [a[0]] + Filter(keep, a[1..] + b);
          [a[0]] + (Filter(keep, a[1..]) + Filter(keep, b));
          ([a[0]] + Filter(keep, a[1..])) + Filter(keep, b);
        }
      }
    }
  }
}

=== FILE: strings.dfy ===
/** The pieces of JavaScript string handling the extension relies on: the
    character classes of its regular expressions, `includes`, `startsWith`,
    `endsWith`, `trim`, `split` and `join`. Strings are sequences of code
    points here, where JavaScript uses UTF-16 code units. */
module Strings {

  /** `\w` in a JavaScript regular expression. */
  predicate IsWordChar(c: char) {
    ('a' <= c <= 'z') || ('A' <= c <= 'Z') || ('0' <= c <= '9') || c == '_'
  }

  /** `\d` in a JavaScript regular expression. */
  predicate IsDigit(c: char) {
    '0' <= c <= '9'
  }

  /** `\s` in a JavaScript regular expression; `String.prototype.trim`
      removes exactly these characters. */
  predicate IsSpace(c: char) {
    var n := c as int;
    n == 0x09 || n == 0x0A || n == 0x0B || n == 0x0C || n == 0x0D || n == 0x20
    || n == 0xA0 || n == 0x1680 || (0x2000 <= n <= 0x200A) || n == 0x2028
    || n == 0x2029 || n == 0x202F || n == 0x205F || n == 0x3000 || n == 0xFEFF
  }

  /** The characters `.` refuses to match in a JavaScript regular expression. */
  predicate IsLineTerminator(c: char) {
    var n := c as int;
    n == 0x0A || n == 0x0D || n == 0x2028 || n == 0x2029
  }

  /** `t` occurs in `s` starting at index `i`. */
  predicate OccursAt(s: string, t: string, i: nat) {
    i + |t| <= |s| && s[i..i + |t|] == t
  }

  lemma OccursAtFirst(s: string, t: string, i: nat)
    requires OccursAt(s, t, i) && |t| > 0
    ensures i < |s| && s[i] == t[0]
  {
    assert s[i..i + |t|][0] == s[i];
  }

  lemma NotOccursAt(s: string, t: string, i: nat)
    requires i < |s| && |t| > 0 && s[i] != t[0]
    ensures !OccursAt(s, t, i)
  {
    if i + |t| <= |s| {
      assert s[i..i + |t|][0] == s[i];
    }
  }

  /** `s.includes(t)`. */
  predicate Contains(s: string, t: string) {
    exists i: nat | i <= |s| :: OccursAt(s, t, i)
  }

  /** `s.endsWith(t)`. */
  predicate EndsWith(s: string, t: string) {
    |t| <= |s| && s[|s| - |t|..] == t
  }

  /** The end of the longest run of characters satisfying `p` that starts at `i`:
      what a greedy `p*` consumes. */
  function Span(s: string, i: nat, p: char -> bool): (j: nat)
    requires i <= |s|
    ensures i <= j <= |s|
    ensures forall k :: i <= k < j ==> p(s[k])
    ensures j == |s| || !p(s[j])
    decreases |s| - i
  {
    if i == |s| || !p(s[i]) then i else Span(s, i + 1, p)
  }

  /** The first index at or after `i` holding `c`, if any: what `[^c]*c` needs. */
  function IndexOf(s: string, i: nat, c: char): (r: int)
    requires i <= |s|
    ensures r == -1 || i <= r < |s|
    ensures r >= 0 ==> s[r] == c && forall k :: i <= k < r ==> s[k] != c
    ensures r == -1 ==> forall k :: i <= k < |s| ==> s[k] != c
    decreases |s| - i
  {
    if i == |s| then -1 else if s[i] == c then i else IndexOf(s, i + 1, c)
  }

  predicate AllSpace(s: string) {
    forall k :: 0 <= k < |s| ==> IsSpace(s[k])
  }

  /** Where the run of `p` characters ending at `j` starts. */
  function SpanBack(s: string, j: nat, p: char -> bool): (i: nat)
    requires j <= |s|
    ensures i <= j
    ensures forall k :: i <= k < j ==> p(s[k])
    ensures i == 0 || !p(s[i - 1])
  {
    if j == 0 || !p(s[j - 1]) then j else SpanBack(s, j - 1, p)
  }

  /** `s.trim()`: the slice of `s` left once leading and trailing white space is cut. */
  function Trim(s: string): (r: string)
    ensures exists a: nat, b: nat | a <= b <= |s| :: r == s[a..b] && AllSpace(s[..a]) && AllSpace(s[b..])
    ensures r == [] || (!IsSpace(r[0]) && !IsSpace(r[|r| - 1]))
  {
    var a := Span(s, 0, IsSpace);
    var b := SpanBack(s, |s|, IsSpace);
    if a == |s| then
      assert AllSpace(s[..a]) && AllSpace(s[a..]);
      s[a..a]
    else
      assert a < b;
      assert AllSpace(s[..a]) && AllSpace(s[b..]);
      s[a..b]
  }

  /** `s.trim() === ''` holds exactly of the strings made of white space only. */
  lemma TrimEmptyIffBlank(s: string)
    ensures Trim(s) == [] <==> AllSpace(s)
  {
  }

  /** `s.split(d)` for a one-character separator. */
  function Split(s: string, d: char): (r: seq<string>)
    ensures |r| >= 1
    ensures forall i :: 0 <= i < |r| ==> d !in r[i]
  {
    if s == [] then [[]]
    else
      var rest := Split(s[1..], d);
      if s[0] == d then [[]] + rest
      else [[s[0]] + rest[0]] + rest[1..]
  }

  /** `parts.join(d)` for a one-character separator. */
  function Join(parts: seq<string>, d: char): string {
    if parts == [] then []
    else if |parts| == 1 then parts[0]
    else parts[0] + [d] + Join(parts[1..], d)
  }

  /** Splitting and joining again gives back the text. */
  lemma {:induction false} JoinSplit(s: string, d: char)
    ensures Join(Split(s, d), d) == s
  {
    if s != [] {
      JoinSplit(s[1..], d);
      var rest := Split(s[1..], d);
      if s[0] != d {
        if |rest| > 1 {
          assert Join(rest, d) == rest[0] + [d] + Join(rest[1..], d);
        }
      }
    }
  }

  /** Joining pieces free of the separator and splitting again gives back the pieces. */
  lemma {:induction false} SplitJoin(parts: seq<string>, d: char)
    requires |parts| >= 1
    requires forall i :: 0 <= i < |parts| ==> d !in parts[i]
    ensures Split(Join(parts, d), d) == parts
  {
    if |parts| == 1 {
      SplitNoSeparator(parts[0], d);
    } else {
      SplitJoin(parts[1..], d);
      SplitPrefix(parts[0], Join(parts[1..], d), d);
      assert parts == [parts[0]] + parts[1..];
    }
  }

  lemma {:induction false} SplitNoSeparator(s: string, d: char)
    requires d !in s
    ensures Split(s, d) == [s]
  {
    if s != [] {
      SplitNoSeparator(s[1..], d);
      assert [s[0]] + s[1..] == s;
    }
  }

  lemma {:induction false} SplitPrefix(p: string, t: string, d: char)
    requires d !in p
    ensures Split(p + [d] + t, d) == [p] + Split(t, d)
  {
    if p == [] {
      assert p + [d] + t == [d] + t;
      assert ([d] + t)[1..] == t;
    } else {
      SplitPrefix(p[1..], t, d);
      assert (p + [d] + t)[1..] == p[1..] + [d] + t;
      assert [p[0]] + p[1..] == p;
    }
  }
}

=== FILE: types.dfy ===
/** The records of the extension: collections, test methods, per-file summaries
    and the in-memory index of cached collections. Dates are whole milliseconds
    since the epoch, the resolution of a JavaScript `Date`. */
module Types {
  import opened Options
  import opened Seqs

  type Millis = int

  /** The freshness window of a scan: thirty minutes. */
  const FreshnessWindow: Millis := 30 * 60 * 1000

  /** The six values of the `TestStatus` enumeration. */
  datatype TestStatus = Unknown | Passed | Failed | Error | Skipped | Running

  /** A configured collection: a named group of test files with one run command. */
  datatype Collection = Collection(
    name: string,
    path: string,
    command: string,
    pattern: Option<string>,
    useDocker: Option<bool>,
    dockerImage: Option<string>)

  /** One test method. `collection` is a copy of the collection's configuration. */
  datatype TestMethod = TestMethod(
    name: string,
    className: string,
    filePath: string,
    collection: Collection,
    status: Option<TestStatus>,
    lastRun: Option<Millis>,
    errorMessage: Option<string>,
    failureDetails: Option<string>)

  /** The summary of one test file with its counters. */
  datatype TestFile = TestFile(
    filePath: string,
    className: string,
    collection: Collection,
    status: Option<TestStatus>,
    totalTests: nat,
    passedTests: nat,
    failedTests: nat,
    errorTests: nat,
    skippedTests: nat,
    runningTests: nat)

  /** The cached result of scanning one collection. */
  datatype CachedCollection = CachedCollection(
    collection: Collection,
    files: seq<string>,
    methods: seq<TestMethod>,
    testFiles: seq<TestFile>,
    lastScan: Millis)

  /** The in-memory index: collection name to its cached scan. */
  type Index = map<string, CachedCollection>

  /** `methods.find(m => m.className === c && m.name === n)`, as an index. */
  function FindMethod(methods: seq<TestMethod>, className: string, name: string): (k: int)
    ensures -1 <= k < |methods|
    ensures k >= 0 ==> methods[k].className == className && methods[k].name == name
    ensures forall j :: 0 <= j < |methods| && (k == -1 || j < k) ==>
              !(methods[j].className == className && methods[j].name == name)
  {
    if methods == [] then -1
    else if methods[0].className == className && methods[0].name == name then 0
    else
      var k := FindMethod(methods[1..], className, name);
      if k == -1 then -1 else k + 1
  }

  /** The test `m => m.filePath === path`. */
  function OnFile(path: string): TestMethod -> bool {
    (m: TestMethod) => m.filePath == path
  }

  /** `methods.filter(m => m.filePath === path)`. */
  function MethodsOfFile(methods: seq<TestMethod>, path: string): (r: seq<TestMethod>)
    ensures |r| <= |methods|
    ensures forall m :: m in r ==> m in methods && m.filePath == path
    ensures forall m :: m in methods && m.filePath == path ==> m in r
  {
    FilterMembers(OnFile(path), methods);
    Filter(OnFile(path), methods)
  }
}
